=== FILE: README.md ===
# Watch-room engine

This is a Dafny model of the synchronized watch-room backend: rooms where members watch a video together. In a `host_only` room only the host drives playback; in an `all_members` room any user id may, since the playback and time-update handlers do not check membership. Members chat, and the server keeps a presence map of who is connected through which Socket.IO session.

The model has three layers.

- **Users** (`users.dfy`) is the user directory of `backend/crud.py`. The first user to sign up becomes admin. Password hashing and verification are opaque function parameters.
- **RoomStore** (`room_store.dfy`, with `room_code.dfy`) holds the room, member and message tables of `backend/sync_room_crud.py`. Each table is a sequence of rows in primary-key order, with the queries and updates on it.
  - Room-code generation takes its random draws as input.
  - `create_room` retries until it finds a code that no room uses.
- **Gateway** (`gateway.dfy`, with `presence.dfy` and `text.dfy`) models the Socket.IO handlers of `backend/websocket_server.py`.
  - Each handler is one atomic transition from a `Server` (store, directory and presence map) to a new `Server` plus the list of events it sends.
  - An event is a payload and a target: the sender only, the whole room, or the room except the sender.
  - `disconnect` is a method whose loop sweeps every room.
  - Chat text is trimmed as Python's `str.strip()` does it.

`sessions.dfy` states properties that span several calls:
- the server invariant is kept over any sequence of requests and disconnects (`Serve`, the event loop);
- from startup, the invariant also survives the user and room operations of the HTTP side, mixed in any order with socket traffic (`ServeFromStart`);
- after a seek, a sync reply carries the new position;
- a host leaving does not hand control to anyone;
- the chat length bound is 500 inclusive;
- joining and leaving compose on the presence map.

The server invariant `Gateway.Inv` requires all of the following:
- the store is valid: room ids equal their positions, codes are distinct well-formed codes, there is at most one member row per (room, user), and member and message ids increase;
- the directory is valid;
- the presence map never keeps a room whose connection map is empty.

Two behaviours of the code are worth stating because one might expect otherwise:
- leaving a room deletes the member row (backend/sync_room_crud.py:129-132); it is not marked offline;
- no handler changes `control_mode` when the host leaves (backend/websocket_server.py:141-181).

## Model

| member | source | states |
|---|---|---|
| Users.GetUserById | backend/crud.py:11-12 | the user is found exactly when the id is in the table, and what is returned is the stored row, which in a valid table carries that id |
| Users.CreateUser | backend/crud.py:14-30 | the role is `admin` exactly when the table was empty and `user` otherwise; the stored password is the hash of the supplied one; the new row gets a fresh id and is then found by it |
| Users.FirstUserIsOnlyAdmin | backend/crud.py:17-19 | starting from an empty table, after any non-empty series of sign-ups the first user is the one and only admin |
| Users.LaterUsersAreNotAdmins | backend/crud.py:17-19 | once the table is non-empty, further sign-ups never change the set of admins |
| Users.UpdateUser | backend/crud.py:36-53 | an unknown id gives `None` and changes nothing; otherwise exactly the supplied fields change, and a supplied password is stored only as its hash |
| Users.UpdateUserPassword | backend/crud.py:55-69 | an unknown id gives `None`, and an old password that fails verification gives `False`, both changing nothing; otherwise only that user's hash is replaced by the hash of the new password |
| Users.NewPasswordVerifies | backend/crud.py:62-66 | after a successful change, the new password verifies against the stored hash, provided verification accepts what hashing produces |
| Users.DeleteUser | backend/crud.py:71-78 | the result is `True` exactly when the user existed; afterwards the id is not found, and every other user is found as before |
| RoomCode.GenerateRoomCode | backend/sync_room_crud.py:11-13 | a generated code has six characters, each in A-Z or 0-9 |
| RoomCode.GenerateRoomCodeBijective | backend/sync_room_crud.py:11-13 | draws and codes correspond one to one: every well-formed code is produced by exactly one draw |
| RoomCode.FirstUnusedCode | backend/sync_room_crud.py:18-21 | the chosen code is the first drawn code that no room uses, active or closed; every earlier draw collided |
| RoomStore.GetRoomById | backend/sync_room_crud.py:47-52 | a room is found by id exactly when it exists and is active; the row found is the stored one, and in a valid store it carries the requested id |
| RoomStore.GetRoomByCode | backend/sync_room_crud.py:40-45 | a room is found only if it is active and has that code, and `None` means no active room has that code |
| RoomStore.GetRoomByCodeAgreesWithId | backend/sync_room_crud.py:40-52 | in a valid store, looking up a room's code gives the same answer as looking up its id |
| RoomStore.CreateRoom | backend/sync_room_crud.py:15-38 | the new room's code differs from every existing room's code, active or closed; the room is active, paused at 0 and hosted by the creator; the host is a member through exactly one appended row when no row names the new room yet, and no other member row changes; messages are untouched; the store stays valid |
| RoomStore.UpdateRoom | backend/sync_room_crud.py:75-88 | a missing or closed room gives `None` and no change; otherwise exactly the supplied fields plus `updated_at` change, and no other row moves |
| RoomStore.CloseRoom | backend/sync_room_crud.py:90-98 | the result is `True` exactly when the room was found active; only that room's `is_active` changes; afterwards it is not found by id |
| RoomStore.ClosedRoomIsHidden | backend/sync_room_crud.py:40-52 | after closing, the room is found neither by id nor by its code |
| RoomStore.IsRoomMemberIff | backend/sync_room_crud.py:156-161 | membership holds exactly when some member row has that room and user |
| RoomStore.JoinRoom | backend/sync_room_crud.py:101-120 | a repeat join returns the existing row and changes nothing; a first join appends exactly one row with a fresh id; afterwards the user is a member |
| RoomStore.JoinRoomIdempotent | backend/sync_room_crud.py:104-110 | joining a second time leaves the store as the first join left it and returns the same row |
| RoomStore.JoinAllKeepsMembershipUnique | backend/sync_room_crud.py:101-120 | after any sequence of joins there is at most one member row per (room, user), and the store is valid |
| RoomStore.LeaveRoom | backend/sync_room_crud.py:122-133 | the result is `True` exactly when a member row existed; then exactly that row is deleted and every other row stays, in order; otherwise nothing changes; every other (room, user) pair keeps its membership; in a valid store the user is no longer a member |
| RoomStore.GetRoomMembers | backend/sync_room_crud.py:135-154 | there is one entry per member row of the room, in table order; each carries the row's id, user id, `is_verified` flag and `joined_at` time, the user's username, and the nickname if it is set and non-empty, otherwise the username; every entry is a member of that room; the result is `None` when a row's user is gone |
| RoomStore.CreateMessage | backend/sync_room_crud.py:164-174 | exactly one message is appended, holding the given room, author and text, and nothing else in the store changes |
| RoomStore.MessagePageIsHistorySlice | backend/sync_room_crud.py:176-195 | the page is the contiguous run of the room's history holding its (skip+1)-th through (skip+limit)-th newest messages, oldest first: at most `limit`, all of that room |
| RoomStore.NewMessageEndsFirstPage | backend/sync_room_crud.py:164-195 | a newly posted message extends the room's history by itself and is the last entry of the first page |
| RoomStore.GetRoomMessages | backend/sync_room_crud.py:176-195 | the result shows exactly the (skip+1)-th through (skip+limit)-th newest messages of the room, oldest first, each with its author's username; it is `None` exactly when one of their authors is gone |
| Presence.Attach | backend/websocket_server.py:99-102 | the room's map gains the user with the new sid, replacing any earlier sid (last wins); no other room changes; no empty room map is created |
| Presence.Detach | backend/websocket_server.py:161-166 | the user is removed from the room; the room's entry is dropped exactly when nothing is left in it; no other room changes; no empty room map survives |
| Presence.AttachThenDetach | backend/websocket_server.py:99-102 | attaching then detaching a user who was not attached restores the presence map exactly |
| Text.Strip | backend/websocket_server.py:249 | the result is the infix of the message that neither starts nor ends with whitespace and is surrounded by whitespace only |
| Text.StripEmptyIffAllSpace | backend/websocket_server.py:249-251 | a message strips to nothing exactly when it is all whitespace |
| Text.StripIdempotent | backend/websocket_server.py:249 | stripping twice is stripping once |
| Gateway.OnJoin | backend/websocket_server.py:64-139 | the gates are checked in the source's order, each with its own `error` to the sender and no change: missing ids give "missing parameters", a missing or closed room gives "room not found", and a non-member who is not an admin in stealth mode gets "not a member"; otherwise the user is attached (last wins), or not recorded at all for an admin stealth join; `join_success` goes to the sender only; `member_joined` goes to the room except the sender exactly when the stealth flag is false; no other event is sent; a failed member listing gives one `error` |
| Gateway.JoinReplies | backend/websocket_server.py:104-136 | an admitted join sends exactly `join_success` to the sender, followed by `member_joined` to the room except the sender exactly when the flag is not stealth, and nothing else; a failed member listing gives only an `error` to the sender |
| Gateway.OnLeave | backend/websocket_server.py:141-181 | missing ids do nothing; otherwise the member row is deleted, the user leaves the presence map and an emptied room is pruned, and `member_left` goes to the whole room only if the user was attached |
| Gateway.Apply | backend/websocket_server.py:210-219 | `play` sets playing and `pause` clears it; `seek` with a time sets the position; any other action changes neither; `updated_at` is stamped; no other field changes |
| Gateway.OnControl | backend/websocket_server.py:183-239 | missing parameters, a missing room, or a non-host in `host_only` mode each get their `error` and change nothing; otherwise the room is updated by the action and the whole room, sender included, hears `playback_sync` with the post-update playing flag and the rate, which defaults to 1.0 |
| Gateway.OnChat | backend/websocket_server.py:241-286 | the text is stripped first; empty text or a missing id, text over 500 characters, and a non-member each get their `error` and change nothing; otherwise exactly one message with the stripped text is appended and `new_message` goes to the whole room |
| Gateway.OnTimeUpdate | backend/websocket_server.py:288-320 | nothing is stored; the position is relayed to the room except the sender exactly when the ids and time are given, the room is active and the sender may control it; otherwise nothing is sent |
| Gateway.OnSyncRequest | backend/websocket_server.py:322-362 | nothing changes; the sender alone gets one reply, which is `playback_sync` with the room's stored position and playing flag attributed to the host exactly when the room is active and the user is a member; otherwise it is the `error` of the first failing gate, in the source's order: "missing parameters", then "room not found", then "not a member" |
| Gateway.OnDisconnect | backend/websocket_server.py:41-62 | in each room, at most one user, one attached through the closing sid, is removed; each room holding that sid loses one such user, and the rest of that room hears `member_left` once; rooms without the sid are unchanged; emptied rooms are dropped; the store is untouched |
| Gateway.Handle | backend/websocket_server.py:64-362 | every handler keeps the server invariant (valid store and directory, no empty room in the presence map), and every `error` goes to the sender only |
| Sessions.Serve | backend/websocket_server.py:41-362 | handling any sequence of requests and disconnects one after another keeps the server invariant, and no `error` is ever broadcast; a disconnect-free sequence gives exactly the handlers' results in order |
| Sessions.ServeFromStart | backend/websocket_server.py:28-29 | starting from empty tables and an empty presence map, any mix of database actions (sign-ups, user and room changes, joins and leaves through the CRUD layer), socket requests and disconnects ends with the server invariant holding and no `error` broadcast |
| Sessions.Administer | backend/crud.py:14-78 | a database action applies the matching `crud.py` or `sync_room_crud.py` operation to the tables, leaves the presence map alone and keeps the server invariant; creating a room adds at most one room and keeps the earlier rooms and all messages |
| Sessions.Dispatch | backend/websocket_server.py:41-362 | a request is handled by its handler and a hangup by `disconnect`, which changes the presence map as `Disconnected` describes and leaves the database untouched; either way the server invariant is kept and no `error` is broadcast |
| Sessions.SeekThenSync | backend/websocket_server.py:215-220 | after an admitted seek, a member's sync request is answered with the new position, the unchanged playing flag and the host's id |
| Sessions.HostLeaveKeepsControl | backend/websocket_server.py:155 | a host leaving a `host_only` room leaves the room row as it was, so every other user is still refused control |
| Sessions.ChatLengthBoundary | backend/websocket_server.py:255-257 | for a member's message with no surrounding whitespace, a length of at most 500 is accepted and stored, 500 included; a longer one is refused as too long |
| Sessions.BlankChatRefused | backend/websocket_server.py:249-253 | a message of whitespace only is refused as empty and nothing is stored |
| Sessions.JoinThenLeave | backend/websocket_server.py:99-173 | a non-stealth join by a user who was not attached, followed by their leave, restores the presence map exactly, and the room hears `member_left` |
| Sessions.RejoinLastWins | backend/websocket_server.py:99-102 | joining again from a new connection replaces the recorded sid, and no other room's connections move |

## Left out

- Socket.IO transport: `enter_room`, `leave_room` and the actual delivery of events are not modelled. The socket-room membership used for broadcasts is not modelled either. Events are only listed with their target.
- The `connect` handler sends a greeting and touches no state, so it is not modelled.
- SQLAlchemy sessions, commits and `joinedload` are replaced by in-memory tables. Each handler is one atomic step: the interleaving of concurrent async handlers is not modelled.
- Exception paths are left out, except one. When the member listing fails during a join (a member row whose user was deleted), the model returns the `error` to the sender after the presence map has already been updated, just as the source does. Other database failures and their "… failed" errors are not modelled.
- Playback time and `rate` are `real` values that are only stored and echoed. Float rounding is not modelled.
- Timestamps (`datetime.utcnow()`) are a `now` parameter. `isoformat` rendering is not modelled.
- `get_room_messages` orders by `created_at` descending. The model takes insertion order as creation order, so it does not cover two messages with the same timestamp.
- `random.choices` is replaced by a given list of draws.
- RoomCode.FirstUnusedCode: returns `None` when the finite list of draws runs out. The source loops until an unused code comes up.
- RoomStore.CreateRoom: `None` when the draws run out, for the same reason.
- bcrypt hashing and verification are function parameters. JWT handling is not modelled.
- Gateway.OnChat: a `message` field sent as JSON null makes the source's `.strip()` raise, and the client gets a "send failed" error. The model treats it as an empty message, which is also an error to the sender only, with nothing stored.
- Gateway.OnControl: a `rate` sent as JSON null is echoed as null by the source. The model cannot tell an explicit null from an absent field, so it echoes 1.0.
- Gateway.OnJoin: a `username` sent as JSON null is echoed as null by the source. The model echoes "Anonymous".
- Gateway.OnChat: a `username` sent as JSON null is likewise echoed as null in `new_message` (backend/websocket_server.py:248, 274). The model echoes "Anonymous".
- Users.UpdateUser: the model cannot tell an explicitly null field from an absent one, so it leaves a null field alone and succeeds. The source's `exclude_unset` passes explicit nulls through (backend/crud.py:42-49). A null password makes hashing raise (backend/security.py:23-26). A null username or email breaks the NOT NULL columns (backend/models.py:10-11), so the commit fails.
- The `UserUpdate`, `SyncRoomCreate` and `SyncRoomUpdate` request schemas are not part of this model. Their field sets are assumptions, taken from the fields the CRUD code reads.
- Foreign keys and cascading deletes are not modelled. `delete_user` deletes just the user row (backend/crud.py:71-78). Any cascade would come from the SyncRoom model declarations, which are not part of this model. So in the model, member and message rows that name a deleted user stay, and that is what lets the join-time member listing fail. The user-operations script says `delete_user` now cascades (test_user_operations.py:63). If it does, that failure cannot happen.
- RoomStore.UpdateRoom: the model lets only `video_source` be set to null. The source lets any supplied field be set to null.
- The SyncRoom, SyncRoomMember and SyncRoomMessage declarations are not part of this model. Their fields are taken from the columns the CRUD code and the handlers read and write. The column defaults are assumptions: a new room has `is_active` true, `current_time` 0 and `is_playing` false, and a new member has `is_verified` false.
- RoomStore.GetRoomByCode: the model compares codes exactly. The database is created with the `utf8mb4_unicode_ci` collation (deployment-package/scripts/database/check_database.py:26), under which the query's `==` ignores letter case and trailing spaces. So `get_room_by_code` finds room `AB12CD` when given `ab12cd`, and the model returns `None`. Stored codes are always upper-case letters and digits, so code uniqueness in `create_room` is unaffected.
- RoomStore.GetRoomMembers: `get_room_members` has no `ORDER BY` (backend/sync_room_crud.py:137-141), so SQL promises no order. The model assumes primary-key (insertion) order. The same holds for the `.first()` lookups of `join_room` and `leave_room`, which the model takes as the earliest matching row.
- The HTTP routes that call the CRUD layer are not part of this model, and neither are their authentication and permission checks. `Sessions.Administer` lets any database action happen at any time.
- Database unique constraints on usernames and emails are not modelled. `create_user` does not check them itself.
- `get_user_rooms`, `get_all_users`, `get_user_by_username`, `get_user_by_email` and the post operations are not part of this model. Neither is the background room-cleanup task.
- Gateway.OnDisconnect: when several users in one room share the closing sid, the source removes the first one in dictionary order. The model lets any one of them go. The source also visits rooms in the insertion order of the presence map, which fixes the order of the `member_left` events across rooms. The model visits rooms in an arbitrary order, so it promises only that each such room is told once.

=== FILE: common.dfy ===
/** Identifiers, optional values, clock readings and small sequence helpers
    shared by every part of the watch-room engine. */
module Common {

  /** A value that may be absent: a missing event field, a `None` row from a
      query. */
  datatype Option<+T> = None | Some(value: T) {
    function GetOr(default: T): T {
      match this
      case Some(v) => v
      case None => default
    }
  }

  /** Database primary keys (autoincrement integers). */
  type UserId = int
  type RoomId = int

  /** Socket.IO session id of one client connection. */
  type Sid = string

  /** An abstract clock reading standing in for `datetime.utcnow()`. */
  type Timestamp = nat

  /** Playback position in seconds and playback rate. The engine only stores
      and echoes them, so a real number stands in for the float. */
  type Seconds = real

  /** Python truthiness of an integer event field: absent, `null` and `0`
      all count as missing (`if not room_id`). */
  predicate GivenId(field: Option<int>) {
    field.Some? && field.value != 0
  }

  /** Python truthiness of a text event field: absent, `null` and `""` all
      count as missing (`if not action`). */
  predicate GivenText(field: Option<string>) {
    field.Some? && field.value != ""
  }

  function Min(a: int, b: int): int {
    if a <= b then a else b
  }

  /** The sequence read back to front. */
  function Reverse<T>(s: seq<T>): (r: seq<T>)
    ensures |r| == |s|
    ensures forall i :: 0 <= i < |s| ==> r[i] == s[|s| - 1 - i]
  {
    seq(|s|, i requires 0 <= i < |s| => s[|s| - 1 - i])
  }

  /** SQL `OFFSET skip LIMIT limit` applied to an ordered result. */
  function Window<T>(s: seq<T>, skip: nat, limit: nat): (r: seq<T>)
    ensures |r| <= limit
    ensures |r| == Min(limit, |s| - Min(skip, |s|))
    ensures forall k :: 0 <= k < |r| ==> skip + k < |s| && r[k] == s[skip + k]
  {
    s[Min(skip, |s|)..Min(skip + limit, |s|)]
  }

  /** Newest-first, then `OFFSET skip LIMIT limit`, then back to oldest-first
      is a contiguous slice of the oldest-first sequence. */
  lemma ReverseWindowIsSlice<T>(a: seq<T>, skip: nat, limit: nat)
    ensures var n := |a|;
            Reverse(Window(Reverse(a), skip, limit)) == a[n - Min(skip + limit, n)..n - Min(skip, n)]
  {
    var n := |a|;
    var newest := Reverse(a);
    var w := Window(newest, skip, limit);
    var page := Reverse(w);
    if skip >= n {
      assert w == [];
    } else {
      var hi := Min(skip + limit, n);
      var slice := a[n - hi..n - skip];
      assert |w| == hi - skip;
      forall k | 0 <= k < |w| ensures page[k] == slice[k] {
        ReverseWindowAt(a, skip, limit, k);
      }
    }
  }

  lemma ReverseWindowAt<T>(a: seq<T>, skip: nat, limit: nat, k: nat)
    requires skip < |a|
    requires k < |Window(Reverse(a), skip, limit)|
    ensures Reverse(Window(Reverse(a), skip, limit))[k] == a[|a| - Min(skip + limit, |a|) + k]
  {
    var w := Window(Reverse(a), skip, limit);
    var j := |w| - 1 - k;
    assert w[j] == Reverse(a)[skip + j];
  }

  /** A set with no element is the empty set. */
  lemma NoElementMeansEmpty(t: set<int>)
    requires forall x :: x !in t
    ensures t == {}
  {
    assert forall x :: x in t <==> x in {};
  }

  /** A non-empty set has an element to pick. */
  lemma HasElement(t: set<int>)
    requires t != {}
    ensures exists x :: x in t
  {
    if forall x :: x !in t {
      NoElementMeansEmpty(t);
      assert false;
    }
  }
}

=== FILE: gateway.dfy ===
/** The Socket.IO event handlers of `backend/websocket_server.py`, each as one
    atomic transition from a server state to a new state plus the events it
    sends. An event is a payload and a target: the sender only, the whole
    room, or the room except the sender. */
module Gateway {
  import opened Common
  import opened Text
  import Users
  import opened RoomStore
  import opened Presence

  const MaxMessageLength := 500
  const DefaultUsername := "Anonymous"
  const DefaultRate: real := 1.0

  /** The reasons carried by `error` events, one per message text of the
      source. */
  datatype ErrorReason =
    | MissingParameters   // missing required parameters
    | RoomNotFound        // the room does not exist (or is closed)
    | NotMember           // the user is not a member of the room
    | NotHost             // only the host may control playback
    | EmptyMessage        // the message is empty (also: room or user missing)
    | MessageTooLong      // the message is longer than 500 characters
    | JoinFailed          // listing the members failed during a join

  datatype Target = ToSender | ToRoom(room: RoomId) | ToRoomExceptSender(room: RoomId)

  datatype Payload =
    | Error(reason: ErrorReason)
    | JoinSuccess(roomId: RoomId, room: Room, members: seq<MemberView>)
    | MemberJoined(userId: UserId, username: string, roomId: RoomId)
    | MemberLeft(userId: UserId, roomId: RoomId)
    | PlaybackSync(action: string, time: Option<Seconds>, rate: Option<real>, isPlaying: bool, userId: UserId)
    | NewMessage(messageId: nat, roomId: RoomId, userId: UserId, username: string, text: string, createdAt: Timestamp)
    | TimeSync(position: Seconds, userId: UserId)

  datatype Emit = Emit(target: Target, payload: Payload)

  /** The store, the user directory and the presence map together. */
  datatype Server = Server(store: Store, directory: Users.Directory, presence: Registry)

  datatype Step = Step(server: Server, out: seq<Emit>)

  predicate Inv(s: Server) {
    RoomStore.Valid(s.store) && Users.Valid(s.directory) && NoEmptyRoom(s.presence)
  }

  /** A refused request: nothing changes and only the sender hears why. */
  function Reject(s: Server, reason: ErrorReason): Step {
    Step(s, [Emit(ToSender, Error(reason))])
  }

  /** Every `error` event goes back to the sender only. */
  predicate ErrorsToSender(out: seq<Emit>) {
    forall i :: 0 <= i < |out| && out[i].payload.Error? ==> out[i].target == ToSender
  }

  predicate IsRejection(s: Server, r: Step) {
    r.server == s && |r.out| == 1 && r.out[0].target == ToSender && r.out[0].payload.Error?
  }

  // ------------------------------------------------------------ join_room

  datatype JoinData = JoinData(roomId: Option<int>, userId: Option<int>, username: Option<string>, stealth: bool)

  /** A stealth request from a user whose role is admin. */
  predicate IsAdminStealth(s: Server, d: JoinData) {
    d.stealth && d.userId.Some? && Users.IsAdmin(s.directory, d.userId.value)
  }

  /** The gates of `join_room`: both ids given, the room active, and the user
      a member unless this is an admin in stealth mode. */
  predicate JoinAdmitted(s: Server, d: JoinData) {
    && GivenId(d.roomId) && GivenId(d.userId)
    && GetRoomById(s.store, d.roomId.value).Some?
    && (IsAdminStealth(s, d) || IsRoomMember(s.store, d.roomId.value, d.userId.value))
  }

  /** Every member row of the room still has its user, so the member list
      can be built. */
  predicate MembersListable(s: Server, roomId: RoomId) {
    GetRoomMembers(s.store, s.directory, roomId).Some?
  }

  predicate Announces(out: seq<Emit>) {
    exists i :: 0 <= i < |out| && out[i].payload.MemberJoined?
  }

  /** What an admitted join sends: `join_success` to the sender and, unless
      the join is stealthy, `member_joined` to the rest of the room; or a
      lone `error` when the member list cannot be built. */
  function JoinReplies(roomId: RoomId, room: Room, userId: UserId, username: string, stealth: bool,
                       members: Option<seq<MemberView>>): (out: seq<Emit>)
    ensures members.None? ==> out == [Emit(ToSender, Error(JoinFailed))]
    ensures members.Some? ==> |out| == (if stealth then 1 else 2)
    ensures members.Some? ==> out[0] == Emit(ToSender, JoinSuccess(roomId, room, members.value))
    ensures forall i :: 0 <= i < |out| && out[i].payload.JoinSuccess? ==> out[i].target == ToSender
    ensures forall i :: 0 <= i < |out| && out[i].payload.MemberJoined? ==>
      out[i] == Emit(ToRoomExceptSender(roomId), MemberJoined(userId, username, roomId))
    ensures Announces(out) <==> members.Some? && !stealth
    ensures ErrorsToSender(out)
  {
    match members
    case None => [Emit(ToSender, Error(JoinFailed))]
    case Some(list) =>
      var welcome := Emit(ToSender, JoinSuccess(roomId, room, list));
      var announce := Emit(ToRoomExceptSender(roomId), MemberJoined(userId, username, roomId));
      var out := if stealth then [welcome] else [welcome, announce];
      assert !stealth ==> out[1].payload.MemberJoined?;
      out
  }

  function OnJoin(s: Server, sid: Sid, d: JoinData): (r: Step)
    ensures !JoinAdmitted(s, d) ==> IsRejection(s, r)
    ensures !(GivenId(d.roomId) && GivenId(d.userId)) ==> r == Reject(s, MissingParameters)
    ensures GivenId(d.roomId) && GivenId(d.userId) && GetRoomById(s.store, d.roomId.value).None? ==>
      r == Reject(s, RoomNotFound)
    ensures GivenId(d.roomId) && GivenId(d.userId) && GetRoomById(s.store, d.roomId.value).Some?
            && !IsAdminStealth(s, d) && !IsRoomMember(s.store, d.roomId.value, d.userId.value) ==>
      r == Reject(s, NotMember)
    ensures JoinAdmitted(s, d) ==>
      var room, user := d.roomId.value, d.userId.value;
      && r.server.store == s.store
      && r.server.directory == s.directory
      && (IsAdminStealth(s, d) ==> r.server.presence == s.presence)
      && (!IsAdminStealth(s, d) ==> r.server.presence == Attach(s.presence, room, user, sid))
    ensures JoinAdmitted(s, d) && MembersListable(s, d.roomId.value) ==>
      && |r.out| == (if d.stealth then 1 else 2)
      && r.out[0] == Emit(ToSender, JoinSuccess(d.roomId.value, s.store.rooms[d.roomId.value - 1],
                                                GetRoomMembers(s.store, s.directory, d.roomId.value).value))
    ensures JoinAdmitted(s, d) && !MembersListable(s, d.roomId.value) ==>
      r.out == [Emit(ToSender, Error(JoinFailed))]
    ensures forall i :: 0 <= i < |r.out| && r.out[i].payload.JoinSuccess? ==> r.out[i].target == ToSender
    ensures forall i :: 0 <= i < |r.out| && r.out[i].payload.MemberJoined? ==>
      r.out[i] == Emit(ToRoomExceptSender(d.roomId.value),
                       MemberJoined(d.userId.value, d.username.GetOr(DefaultUsername), d.roomId.value))
    ensures Announces(r.out) <==> JoinAdmitted(s, d) && MembersListable(s, d.roomId.value) && !d.stealth
    ensures NoEmptyRoom(s.presence) ==> NoEmptyRoom(r.server.presence)
    ensures ErrorsToSender(r.out)
    ensures Inv(s) ==> Inv(r.server)
  {
    if !GivenId(d.roomId) || !GivenId(d.userId) then Reject(s, MissingParameters)
    else
      var roomId, userId := d.roomId.value, d.userId.value;
      match GetRoomById(s.store, roomId)
      case None => Reject(s, RoomNotFound)
      case Some(room) =>
        var adminStealth := d.stealth && Users.IsAdmin(s.directory, userId);
        if !adminStealth && !IsRoomMember(s.store, roomId, userId) then Reject(s, NotMember)
        else
          var presence := if adminStealth then s.presence else Attach(s.presence, roomId, userId, sid);
          Step(s.(presence := presence),
               JoinReplies(roomId, room, userId, d.username.GetOr(DefaultUsername), d.stealth,
                           GetRoomMembers(s.store, s.directory, roomId)))
  }

  /** An admitted join that is not an admin's stealth join changes nothing
      but the presence map, where it attaches the user. */
  lemma JoinAttaches(s: Server, sid: Sid, d: JoinData)
    requires JoinAdmitted(s, d) && !IsAdminStealth(s, d)
    ensures OnJoin(s, sid, d).server == s.(presence := Attach(s.presence, d.roomId.value, d.userId.value, sid))
  {
  }

  // ----------------------------------------------------- leave_room_event

  datatype LeaveData = LeaveData(roomId: Option<int>, userId: Option<int>)

  /** `leave_room_event`: deletes the member row, detaches the user from the
      presence map (dropping an emptied room) and tells the room, but only if
      the user was attached. Missing ids are ignored silently. */
  function OnLeave(s: Server, sid: Sid, d: LeaveData): (r: Step)
    ensures !(GivenId(d.roomId) && GivenId(d.userId)) ==> r == Step(s, [])
    ensures GivenId(d.roomId) && GivenId(d.userId) ==>
      var room, user := d.roomId.value, d.userId.value;
      var was := IsConnected(s.presence, room, user);
      && r.server.store == LeaveRoom(s.store, room, user).store
      && r.server.directory == s.directory
      && Connected(r.server.presence, room) == Connected(s.presence, room) - {user}
      && (forall other :: other != room ==> Connected(r.server.presence, other) == Connected(s.presence, other))
      && (was ==> r.out == [Emit(ToRoom(room), MemberLeft(user, room))])
      && (!was ==> r.out == [])
      && (RoomStore.Valid(s.store) ==> !IsRoomMember(r.server.store, room, user))
    ensures NoEmptyRoom(s.presence) ==> NoEmptyRoom(r.server.presence)
    ensures ErrorsToSender(r.out)
    ensures Inv(s) ==> Inv(r.server)
  {
    if !GivenId(d.roomId) || !GivenId(d.userId) then Step(s, [])
    else
      var roomId, userId := d.roomId.value, d.userId.value;
      var left := LeaveRoom(s.store, roomId, userId);
      var wasConnected := roomId in s.presence && userId in s.presence[roomId];
      var presence := if wasConnected then Detach(s.presence, roomId, userId) else s.presence;
      Step(Server(left.store, s.directory, presence),
           if wasConnected then [Emit(ToRoom(roomId), MemberLeft(userId, roomId))] else [])
  }

  // ------------------------------------------------------ playback_control

  datatype ControlData = ControlData(
    roomId: Option<int>,
    userId: Option<int>,
    action: Option<string>,
    time: Option<Seconds>,
    rate: Option<real>)

  /** In `host_only` mode only the host may drive playback; otherwise anyone
      may (membership is not checked). */
  predicate MayControl(room: Room, userId: UserId) {
    room.controlMode != HostOnly || userId == room.hostUserId
  }

  predicate ControlAdmitted(s: Server, d: ControlData) {
    && GivenId(d.roomId) && GivenId(d.userId) && GivenText(d.action)
    && GetRoomById(s.store, d.roomId.value).Some?
    && MayControl(s.store.rooms[d.roomId.value - 1], d.userId.value)
  }

  /** The playback fields after one control action. */
  function Apply(room: Room, action: string, time: Option<Seconds>, now: Timestamp): (r: Room)
    ensures action == "play" ==> r.isPlaying
    ensures action == "pause" ==> !r.isPlaying
    ensures action != "play" && action != "pause" ==> r.isPlaying == room.isPlaying
    ensures action == "seek" && time.Some? ==> r.currentTime == time.value
    ensures !(action == "seek" && time.Some?) ==> r.currentTime == room.currentTime
    ensures r.updatedAt == now
    ensures r.(isPlaying := room.isPlaying, currentTime := room.currentTime, updatedAt := room.updatedAt) == room
  {
    var r := if action == "play" then room.(isPlaying := true)
             else if action == "pause" then room.(isPlaying := false)
             else if action == "seek" && time.Some? then room.(currentTime := time.value)
             else room;
    r.(updatedAt := now)
  }

  /** `playback_control`: after the parameter, room and control-mode gates,
      applies the action, stamps `updated_at` and broadcasts the post-update
      playing flag to the whole room, sender included. */
  function OnControl(s: Server, sid: Sid, d: ControlData, now: Timestamp): (r: Step)
    ensures !(GivenId(d.roomId) && GivenId(d.userId) && GivenText(d.action)) ==> r == Reject(s, MissingParameters)
    ensures GivenId(d.roomId) && GivenId(d.userId) && GivenText(d.action) && GetRoomById(s.store, d.roomId.value).None? ==>
      r == Reject(s, RoomNotFound)
    ensures GivenId(d.roomId) && GivenId(d.userId) && GivenText(d.action) && GetRoomById(s.store, d.roomId.value).Some?
            && !MayControl(s.store.rooms[d.roomId.value - 1], d.userId.value) ==>
      r == Reject(s, NotHost)
    ensures ControlAdmitted(s, d) ==>
      var id := d.roomId.value;
      var room := Apply(s.store.rooms[id - 1], d.action.value, d.time, now);
      && r.server == s.(store := SaveRoom(s.store, id, room))
      && r.out == [Emit(ToRoom(id), PlaybackSync(d.action.value, d.time, Some(d.rate.GetOr(DefaultRate)),
                                                  room.isPlaying, d.userId.value))]
    ensures RoomStore.Valid(s.store) ==> RoomStore.Valid(r.server.store)
    ensures ErrorsToSender(r.out)
    ensures Inv(s) ==> Inv(r.server)
  {
    if !GivenId(d.roomId) || !GivenId(d.userId) || !GivenText(d.action) then Reject(s, MissingParameters)
    else
      var roomId, userId, action := d.roomId.value, d.userId.value, d.action.value;
      match GetRoomById(s.store, roomId)
      case None => Reject(s, RoomNotFound)
      case Some(room) =>
        if room.controlMode == HostOnly && userId != room.hostUserId then Reject(s, NotHost)
        else
          var room' := Apply(room, action, d.time, now);
          SaveRoomValid(s.store, roomId, room');
          var rate := d.rate.GetOr(DefaultRate);
          Step(s.(store := SaveRoom(s.store, roomId, room')),
               [Emit(ToRoom(roomId), PlaybackSync(action, d.time, Some(rate), room'.isPlaying, userId))])
  }

  // --------------------------------------------------------- send_message

  datatype ChatData = ChatData(roomId: Option<int>, userId: Option<int>, username: Option<string>, message: Option<string>)

  /** The text that is validated and stored: the message stripped of
      surrounding whitespace. */
  function ChatText(d: ChatData): string {
    Strip(d.message.GetOr(""))
  }

  predicate ChatAccepted(s: Server, d: ChatData) {
    && GivenId(d.roomId) && GivenId(d.userId)
    && ChatText(d) != ""
    && |ChatText(d)| <= MaxMessageLength
    && IsRoomMember(s.store, d.roomId.value, d.userId.value)
  }

  /** `send_message`: strips the text, refuses an empty or over-long message
      and non-members, and otherwise stores exactly one message and
      broadcasts it to the whole room. The room being active is not checked. */
  function OnChat(s: Server, sid: Sid, d: ChatData, now: Timestamp): (r: Step)
    ensures !(GivenId(d.roomId) && GivenId(d.userId) && ChatText(d) != "") ==> r == Reject(s, EmptyMessage)
    ensures GivenId(d.roomId) && GivenId(d.userId) && ChatText(d) != "" && |ChatText(d)| > MaxMessageLength ==>
      r == Reject(s, MessageTooLong)
    ensures GivenId(d.roomId) && GivenId(d.userId) && ChatText(d) != "" && |ChatText(d)| <= MaxMessageLength
            && !IsRoomMember(s.store, d.roomId.value, d.userId.value) ==>
      r == Reject(s, NotMember)
    ensures ChatAccepted(s, d) ==>
      var n := |s.store.messages|;
      && |r.server.store.messages| == n + 1
      && r.server.store.messages[..n] == s.store.messages
      && r.server.store == s.store.(messages := r.server.store.messages)
      && r.server.directory == s.directory && r.server.presence == s.presence
      && var m := r.server.store.messages[n];
         && m.roomId == d.roomId.value && m.userId == d.userId.value
         && m.text == ChatText(d) && m.createdAt == now
         && r.out == [Emit(ToRoom(d.roomId.value),
                           NewMessage(m.id, m.roomId, m.userId, d.username.GetOr(DefaultUsername), m.text, now))]
    ensures RoomStore.Valid(s.store) ==> RoomStore.Valid(r.server.store)
    ensures ErrorsToSender(r.out)
    ensures Inv(s) ==> Inv(r.server)
  {
    var text := ChatText(d);
    if !GivenId(d.roomId) || !GivenId(d.userId) || text == "" then Reject(s, EmptyMessage)
    else if |text| > MaxMessageLength then Reject(s, MessageTooLong)
    else
      var roomId, userId := d.roomId.value, d.userId.value;
      if !IsRoomMember(s.store, roomId, userId) then Reject(s, NotMember)
      else
        var posted := CreateMessage(s.store, roomId, userId, text, now);
        var m := posted.message;
        assert posted.store.messages[|s.store.messages|] == m;
        Step(s.(store := posted.store),
             [Emit(ToRoom(roomId), NewMessage(m.id, roomId, userId, d.username.GetOr(DefaultUsername), text, now))])
  }

  // ---------------------------------------------------------- time_update

  datatype TimeData = TimeData(roomId: Option<int>, userId: Option<int>, time: Option<Seconds>)

  /** `time_update`: relays the sender's position to the rest of the room,
      never stores it, and silently drops it unless the sender may control. */
  function OnTimeUpdate(s: Server, sid: Sid, d: TimeData): (r: Step)
    ensures r.server == s
    ensures |r.out| <= 1
    ensures r.out != [] <==>
      && GivenId(d.roomId) && GivenId(d.userId) && d.time.Some?
      && GetRoomById(s.store, d.roomId.value).Some?
      && MayControl(s.store.rooms[d.roomId.value - 1], d.userId.value)
    ensures r.out != [] ==> r.out[0] == Emit(ToRoomExceptSender(d.roomId.value), TimeSync(d.time.value, d.userId.value))
    ensures ErrorsToSender(r.out)
    ensures Inv(s) ==> Inv(r.server)
  {
    if !GivenId(d.roomId) || !GivenId(d.userId) || d.time.None? then Step(s, [])
    else
      var roomId, userId := d.roomId.value, d.userId.value;
      match GetRoomById(s.store, roomId)
      case None => Step(s, [])
      case Some(room) =>
        if room.controlMode == HostOnly && userId != room.hostUserId then Step(s, [])
        else Step(s, [Emit(ToRoomExceptSender(roomId), TimeSync(d.time.value, userId))])
  }

  // --------------------------------------------------------- request_sync

  datatype SyncData = SyncData(roomId: Option<int>, userId: Option<int>)

  /** `request_sync`: a member of an active room receives, alone, the room's
      stored position and playing flag attributed to the host; nothing
      changes. */
  function OnSyncRequest(s: Server, sid: Sid, d: SyncData): (r: Step)
    ensures r.server == s
    ensures |r.out| == 1 && r.out[0].target == ToSender
    ensures r.out[0].payload.PlaybackSync? <==>
      && GivenId(d.roomId) && GivenId(d.userId)
      && GetRoomById(s.store, d.roomId.value).Some?
      && IsRoomMember(s.store, d.roomId.value, d.userId.value)
    ensures !r.out[0].payload.PlaybackSync? ==> r.out[0].payload.Error?
    ensures !(GivenId(d.roomId) && GivenId(d.userId)) ==> r == Reject(s, MissingParameters)
    ensures GivenId(d.roomId) && GivenId(d.userId) && GetRoomById(s.store, d.roomId.value).None? ==>
      r == Reject(s, RoomNotFound)
    ensures GivenId(d.roomId) && GivenId(d.userId) && GetRoomById(s.store, d.roomId.value).Some?
            && !IsRoomMember(s.store, d.roomId.value, d.userId.value) ==>
      r == Reject(s, NotMember)
    ensures r.out[0].payload.PlaybackSync? ==>
      var room := s.store.rooms[d.roomId.value - 1];
      r.out[0].payload == PlaybackSync("sync", Some(room.currentTime), None, room.isPlaying, room.hostUserId)
    ensures ErrorsToSender(r.out)
    ensures Inv(s) ==> Inv(r.server)
  {
    if !GivenId(d.roomId) || !GivenId(d.userId) then Reject(s, MissingParameters)
    else
      var roomId, userId := d.roomId.value, d.userId.value;
      match GetRoomById(s.store, roomId)
      case None => Reject(s, RoomNotFound)
      case Some(room) =>
        if !IsRoomMember(s.store, roomId, userId) then Reject(s, NotMember)
        else Step(s, [Emit(ToSender, PlaybackSync("sync", Some(room.currentTime), None, room.isPlaying, room.hostUserId))])
  }

  // ----------------------------------------------------------- disconnect

  predicate LeftRoom(e: Emit, room: RoomId) {
    e.payload.MemberLeft? && e.payload.roomId == room
  }

  /** The presence map part way through the disconnect sweep. `gone` maps
      each visited room that lost a user to that user: the user was attached
      through `sid` and is the only entry that went. Every other room is as
      it was. */
  ghost predicate SweptPresence(before: Registry, sid: Sid, gone: map<RoomId, UserId>, p: Registry) {
    && p.Keys <= before.Keys
    && (forall room :: room in before && room !in gone ==> room in p && p[room] == before[room])
    && (forall room :: room in gone ==> DroppedFrom(before, p, sid, room, gone[room]))
  }

  /** The `member_left` broadcasts for the rooms in `order`, each naming the
      user that went from that room. */
  function Departures(order: seq<RoomId>, gone: map<RoomId, UserId>): (out: seq<Emit>)
    requires forall k :: 0 <= k < |order| ==> order[k] in gone
    ensures |out| == |order|
  {
    seq(|order|, k requires 0 <= k < |order| => Emit(ToRoomExceptSender(order[k]), MemberLeft(gone[order[k]], order[k])))
  }

  /** The events part way through the sweep: one `member_left` per room in
      `gone`, in the order the rooms were visited. */
  ghost predicate SweptEvents(gone: map<RoomId, UserId>, order: seq<RoomId>, out: seq<Emit>) {
    && (forall room :: room in gone <==> room in order)
    && (forall i, j :: 0 <= i < j < |order| ==> order[i] != order[j])
    && out == Departures(order, gone)
  }

  /** Detaching a user attached through `sid` from a room not yet visited. */
  lemma SweepPresenceStep(before: Registry, sid: Sid, gone: map<RoomId, UserId>, p: Registry, room: RoomId, user: UserId)
    requires SweptPresence(before, sid, gone, p)
    requires room in before && room !in gone
    requires user in before[room] && before[room][user] == sid
    ensures SweptPresence(before, sid, gone[room := user], Detach(p, room, user))
  {
    DetachKeepsOtherDrops(before, p, sid, room, user);
  }

  /** Recording the `member_left` for that room. */
  lemma SweepEventsStep(gone: map<RoomId, UserId>, order: seq<RoomId>, out: seq<Emit>, room: RoomId, user: UserId)
    requires SweptEvents(gone, order, out)
    requires room !in gone
    ensures SweptEvents(gone[room := user], order + [room], out + [Emit(ToRoomExceptSender(room), MemberLeft(user, room))])
  {
    var gone', order' := gone[room := user], order + [room];
    var out' := out + [Emit(ToRoomExceptSender(room), MemberLeft(user, room))];
    forall k | 0 <= k < |order'| ensures out'[k] == Departures(order', gone')[k] {
      if k < |order| {
        assert order'[k] == order[k] && order[k] in gone;
      }
    }
  }

  /** Once every room is visited, `gone` holds exactly the rooms where some
      user was attached through `sid`. */
  lemma SweepFinishedPresence(before: Registry, sid: Sid, gone: map<RoomId, UserId>, p: Registry)
    requires forall room :: room in before && room !in gone ==> !HasSid(before[room], sid)
    requires SweptPresence(before, sid, gone, p)
    ensures forall room :: room in before && !HasSid(before[room], sid) ==> room in p && p[room] == before[room]
    ensures forall room :: room in before && HasSid(before[room], sid) ==> room in gone && DroppedFrom(before, p, sid, room, gone[room])
  {
    forall room | room in gone ensures HasSid(before[room], sid) {
      assert DroppedFrom(before, p, sid, room, gone[room]);
      assert gone[room] in before[room];
    }
  }

  /** The finished sweep's events: one per room in `gone`, none repeated. */
  lemma SweepFinishedEvents(gone: map<RoomId, UserId>, order: seq<RoomId>, out: seq<Emit>)
    requires SweptEvents(gone, order, out)
    ensures forall i :: 0 <= i < |out| ==>
              && out[i].payload.MemberLeft?
              && out[i].target == ToRoomExceptSender(out[i].payload.roomId)
              && out[i].payload.roomId in gone
              && out[i].payload.userId == gone[out[i].payload.roomId]
    ensures forall room :: room in gone ==> exists i :: 0 <= i < |out| && LeftRoom(out[i], room)
    ensures forall i, j :: 0 <= i < j < |out| ==> !LeftRoom(out[j], out[i].payload.roomId)
  {
    forall room | room in gone ensures exists i :: 0 <= i < |out| && LeftRoom(out[i], room) {
      var i :| 0 <= i < |order| && order[i] == room;
      assert LeftRoom(out[i], room);
    }
  }

  /** The loop state of the disconnect sweep: rooms not in `todo` have been
      visited, and `gone` and `order` record what was detached and in which
      order the rooms were told. */
  ghost predicate Sweeping(before: Registry, sid: Sid, todo: set<RoomId>, gone: map<RoomId, UserId>,
                           order: seq<RoomId>, p: Registry, out: seq<Emit>) {
    && todo <= before.Keys
    && gone.Keys <= before.Keys
    && gone.Keys !! todo
    && (forall room :: room in before && room !in todo && room !in gone ==> !HasSid(before[room], sid))
    && SweptPresence(before, sid, gone, p)
    && SweptEvents(gone, order, out)
    && (NoEmptyRoom(before) ==> NoEmptyRoom(p))
  }

  lemma SweepStarts(before: Registry, sid: Sid)
    ensures Sweeping(before, sid, before.Keys, map[], [], before, [])
  {
  }

  /** Visiting a room where `user` is attached through `sid`. */
  lemma SweepMatched(before: Registry, sid: Sid, todo: set<RoomId>, gone: map<RoomId, UserId>,
                     order: seq<RoomId>, p: Registry, out: seq<Emit>, room: RoomId, user: UserId)
    requires Sweeping(before, sid, todo, gone, order, p, out)
    requires room in todo && room in p && user in p[room] && p[room][user] == sid
    ensures Sweeping(before, sid, todo - {room}, gone[room := user], order + [room], Detach(p, room, user),
                     out + [Emit(ToRoomExceptSender(room), MemberLeft(user, room))])
  {
    SweepPresenceStep(before, sid, gone, p, room, user);
    SweepEventsStep(gone, order, out, room, user);
  }

  /** Visiting a room where nobody is attached through `sid`. */
  lemma SweepUnmatched(before: Registry, sid: Sid, todo: set<RoomId>, gone: map<RoomId, UserId>,
                       order: seq<RoomId>, p: Registry, out: seq<Emit>, room: RoomId)
    requires Sweeping(before, sid, todo, gone, order, p, out)
    requires room in todo && room in p && !HasSid(p[room], sid)
    ensures Sweeping(before, sid, todo - {room}, gone, order, p, out)
  {
  }

  /** What `disconnect` does to the presence map and what it sends: in
      every room, the first user attached through `sid` is detached (a room
      left empty is dropped) and the rest of that room is told, once; no
      other entry changes. */
  ghost predicate Disconnected(before: Registry, sid: Sid, after: Registry, out: seq<Emit>) {
    && after.Keys <= before.Keys
    && (forall room :: room in before && !HasSid(before[room], sid) ==>
          room in after && after[room] == before[room])
    && (forall room :: room in before && HasSid(before[room], sid) ==>
          exists u :: DroppedFrom(before, after, sid, room, u))
    && (forall i :: 0 <= i < |out| ==>
          && out[i].payload.MemberLeft?
          && out[i].target == ToRoomExceptSender(out[i].payload.roomId)
          && DroppedFrom(before, after, sid, out[i].payload.roomId, out[i].payload.userId))
    && (forall room :: room in before && HasSid(before[room], sid) ==>
          exists i :: 0 <= i < |out| && LeftRoom(out[i], room))
    && (forall i, j :: 0 <= i < j < |out| ==> !LeftRoom(out[j], out[i].payload.roomId))
  }

  /** The finished sweep did what `disconnect` promises. */
  lemma SweepFinished(before: Registry, sid: Sid, gone: map<RoomId, UserId>, order: seq<RoomId>, p: Registry, out: seq<Emit>)
    requires Sweeping(before, sid, {}, gone, order, p, out)
    ensures Disconnected(before, sid, p, out)
    ensures NoEmptyRoom(before) ==> NoEmptyRoom(p)
  {
    SweepFinishedPresence(before, sid, gone, p);
    SweepFinishedEvents(gone, order, out);
    forall room | room in before && HasSid(before[room], sid) ensures exists u :: DroppedFrom(before, p, sid, room, u) {
      assert DroppedFrom(before, p, sid, room, gone[room]);
    }
  }

  /** One round of the disconnect sweep: in `room`, detach the first user
      attached through `sid`, if any, and tell the rest of the room. */
  method SweepRoom(p: Registry, out: seq<Emit>, sid: Sid, room: RoomId,
                   ghost before: Registry, ghost todo: set<RoomId>,
                   ghost gone: map<RoomId, UserId>, ghost order: seq<RoomId>)
    returns (p': Registry, out': seq<Emit>, ghost gone': map<RoomId, UserId>, ghost order': seq<RoomId>)
    requires Sweeping(before, sid, todo, gone, order, p, out)
    requires room in todo
    ensures Sweeping(before, sid, todo - {room}, gone', order', p', out')
    ensures room in before && HasSid(before[room], sid) ==>
              |out'| == |out| + 1 && out'[|out|] == Emit(ToRoomExceptSender(room), MemberLeft(gone'[room], room))
    ensures room in before && !HasSid(before[room], sid) ==> p' == p && out' == out
  {
    assert room in p;
    var conns := p[room];
    if user :| user in conns && conns[user] == sid {
      SweepMatched(before, sid, todo, gone, order, p, out, room, user);
      p' := Detach(p, room, user);
      out' := out + [Emit(ToRoomExceptSender(room), MemberLeft(user, room))];
      gone' := gone[room := user];
      order' := order + [room];
    } else {
      SweepUnmatched(before, sid, todo, gone, order, p, out, room);
      p', out', gone', order' := p, out, gone, order;
    }
  }

  /** `disconnect`: the presence map changes as `Disconnected` describes and
      the store is untouched. Which user goes when several in one room share
      the connection follows dictionary order, so the model picks any one of
      them. */
  method OnDisconnect(s: Server, sid: Sid) returns (r: Step)
    ensures r.server.store == s.store && r.server.directory == s.directory
    ensures Disconnected(s.presence, sid, r.server.presence, r.out)
    ensures NoEmptyRoom(s.presence) ==> NoEmptyRoom(r.server.presence)
  {
    var todo := s.presence.Keys;
    var p := s.presence;
    var out: seq<Emit> := [];
    ghost var gone: map<RoomId, UserId> := map[];
    ghost var order: seq<RoomId> := [];
    SweepStarts(s.presence, sid);
    while todo != {}
      invariant Sweeping(s.presence, sid, todo, gone, order, p, out)
      decreases todo
    {
      HasElement(todo);
      var room :| room in todo;
      p, out, gone, order := SweepRoom(p, out, sid, room, s.presence, todo, gone, order);
      todo := todo - {room};
    }
    SweepFinished(s.presence, sid, gone, order, p, out);
    r := Step(s.(presence := p), out);
  }

  // ------------------------------------------------------------- dispatch

  datatype Inbound =
    | Join(join: JoinData)
    | Leave(leave: LeaveData)
    | Control(control: ControlData)
    | Chat(chat: ChatData)
    | TimeUpdate(timeUpdate: TimeData)
    | SyncRequest(sync: SyncData)

  /** Routes one inbound event to its handler. Every handler keeps the
      server invariant, and an `error` event only ever goes back to the
      sender. */
  function Handle(s: Server, sid: Sid, e: Inbound, now: Timestamp): (r: Step)
    ensures Inv(s) ==> Inv(r.server)
    ensures ErrorsToSender(r.out)
  {
    match e
    case Join(d) => OnJoin(s, sid, d)
    case Leave(d) => OnLeave(s, sid, d)
    case Control(d) => OnControl(s, sid, d, now)
    case Chat(d) => OnChat(s, sid, d, now)
    case TimeUpdate(d) => OnTimeUpdate(s, sid, d)
    case SyncRequest(d) => OnSyncRequest(s, sid, d)
  }
}

=== FILE: presence.dfy ===
/** The in-memory presence map `room_connections` of
    `backend/websocket_server.py`: for each room, which user is attached
    through which connection. It is kept apart from membership: a member may
    be offline, and an admin in stealth mode is never recorded. */
module Presence {
  import opened Common

  /** One room's connections: user to session id. */
  type Conns = map<UserId, Sid>

  /** `room_connections: {room_id: {user_id: sid}}`. */
  type Registry = map<RoomId, Conns>

  /** The registry keeps no room whose connection map is empty. */
  predicate NoEmptyRoom(p: Registry) {
    forall r :: r in p ==> |p[r]| > 0
  }

  /** A room's connections, empty when the room has no entry. */
  function Connected(p: Registry, room: RoomId): Conns {
    if room in p then p[room] else map[]
  }

  predicate IsConnected(p: Registry, room: RoomId, user: UserId) {
    room in p && user in p[room]
  }

  /** Records `user` in `room` through `sid`, creating the room's entry when
      needed. A reconnect replaces the earlier sid: last wins. */
  function Attach(p: Registry, room: RoomId, user: UserId, sid: Sid): (p': Registry)
    ensures p'.Keys == p.Keys + {room}
    ensures Connected(p', room) == Connected(p, room)[user := sid]
    ensures forall r :: r != room ==> Connected(p', r) == Connected(p, r)
    ensures NoEmptyRoom(p) ==> NoEmptyRoom(p')
  {
    var before := Connected(p, room);
    var after := before[user := sid];
    assert user in after;
    p[room := after]
  }

  /** Removes `user` from `room` and drops the room's entry once it is empty. */
  function Detach(p: Registry, room: RoomId, user: UserId): (p': Registry)
    ensures Connected(p', room) == Connected(p, room) - {user}
    ensures room in p' <==> |Connected(p, room) - {user}| > 0
    ensures p'.Keys <= p.Keys
    ensures forall r :: r != room ==> (r in p' <==> r in p) && Connected(p', r) == Connected(p, r)
    ensures NoEmptyRoom(p) ==> NoEmptyRoom(p')
  {
    if room !in p then p
    else
      var rest := p[room] - {user};
      if |rest| == 0 then p - {room} else p[room := rest]
  }

  /** Attaching and then detaching the same user leaves the room as it was
      without that user, whatever sid was used. */
  lemma AttachThenDetach(p: Registry, room: RoomId, user: UserId, sid: Sid)
    ensures Connected(Detach(Attach(p, room, user, sid), room, user), room) == Connected(p, room) - {user}
    ensures NoEmptyRoom(p) && user !in Connected(p, room) ==> Detach(Attach(p, room, user, sid), room, user) == p
  {
    var p' := Detach(Attach(p, room, user, sid), room, user);
    if NoEmptyRoom(p) && user !in Connected(p, room) {
      assert p'.Keys == p.Keys;
      forall r | r in p ensures p'[r] == p[r] {
        assert Connected(p', r) == Connected(p, r);
      }
    }
  }

  /** Attaching the same user twice is attaching once with the later sid:
      last wins. */
  lemma AttachTwice(p: Registry, room: RoomId, user: UserId, sid: Sid, sid': Sid)
    ensures var p2 := Attach(Attach(p, room, user, sid), room, user, sid');
            && Connected(p2, room) == Connected(p, room)[user := sid']
            && forall other :: other != room ==> Connected(p2, other) == Connected(p, other)
  {
    var c := Connected(p, room);
    assert c[user := sid][user := sid'] == c[user := sid'];
  }

  /** Some user of this room is attached through `sid`. */
  predicate HasSid(c: Conns, sid: Sid) {
    exists u :: u in c && c[u] == sid
  }

  /** What a disconnect did to one room: `user` was attached through `sid`,
      it is the only entry that went, and the room's entry survives only if
      something is left in it. */
  predicate DroppedFrom(before: Registry, after: Registry, sid: Sid, room: RoomId, user: UserId) {
    && room in before
    && user in before[room]
    && before[room][user] == sid
    && Connected(after, room) == before[room] - {user}
    && (room in after <==> |before[room] - {user}| > 0)
  }

  /** Detaching a user from one room keeps every other room's record of what
      a disconnect dropped. */
  lemma DetachKeepsOtherDrops(before: Registry, p: Registry, sid: Sid, room: RoomId, user: UserId)
    ensures forall other, u :: other != room && DroppedFrom(before, p, sid, other, u) ==>
              DroppedFrom(before, Detach(p, room, user), sid, other, u)
  {
  }
}

=== FILE: room_code.dfy ===
/** Room codes: six characters drawn from `string.ascii_uppercase +
    string.digits`, and the retry-until-unused loop of room creation.
    `random.choices` is replaced by its draws: each draw is the list of six
    alphabet positions the random generator picked. */
module RoomCode {
  import opened Common

  const AlphabetSize := 36
  const CodeLength := 6

  /** Membership in `A-Z ∪ 0-9`. */
  predicate InAlphabet(c: char) {
    ('A' <= c <= 'Z') || ('0' <= c <= '9')
  }

  /** Position `k` of the alphabet `ABC…XYZ012…9`. */
  function Symbol(k: nat): (c: char)
    requires k < AlphabetSize
    ensures InAlphabet(c)
  {
    if k < 26 then ('A' as int + k) as char else ('0' as int + (k - 26)) as char
  }

  /** The position of an alphabet character: the inverse of `Symbol`. */
  function SymbolIndex(c: char): (k: nat)
    requires InAlphabet(c)
    ensures k < AlphabetSize && Symbol(k) == c
  {
    if 'A' <= c <= 'Z' then c as int - 'A' as int else c as int - '0' as int + 26
  }

  lemma SymbolInjective(k: nat, k': nat)
    requires k < AlphabetSize && k' < AlphabetSize
    ensures Symbol(k) == Symbol(k') ==> k == k'
  {
  }

  /** One draw of `random.choices(alphabet, k=6)`: six alphabet positions. */
  predicate ValidDraw(picks: seq<nat>) {
    |picks| == CodeLength && forall i :: 0 <= i < |picks| ==> picks[i] < AlphabetSize
  }

  predicate IsRoomCode(s: string) {
    |s| == CodeLength && forall i :: 0 <= i < |s| ==> InAlphabet(s[i])
  }

  /** `generate_room_code` for a given draw. */
  function GenerateRoomCode(picks: seq<nat>): (code: string)
    requires ValidDraw(picks)
    ensures IsRoomCode(code)
  {
    seq(CodeLength, i requires 0 <= i < CodeLength => Symbol(picks[i]))
  }

  /** The draw that produces a given code. */
  function DrawOf(code: string): (picks: seq<nat>)
    requires IsRoomCode(code)
    ensures ValidDraw(picks)
  {
    seq(CodeLength, i requires 0 <= i < CodeLength => SymbolIndex(code[i]))
  }

  /** Every well-formed code is produced by exactly one draw: the generator
      reaches all 36^6 codes and no two draws collide. */
  lemma GenerateRoomCodeBijective(picks: seq<nat>, code: string)
    requires ValidDraw(picks) && IsRoomCode(code)
    ensures GenerateRoomCode(DrawOf(code)) == code
    ensures DrawOf(GenerateRoomCode(picks)) == picks
  {
    var c := GenerateRoomCode(picks);
    forall i | 0 <= i < CodeLength ensures DrawOf(c)[i] == picks[i] {
      SymbolInjective(SymbolIndex(c[i]), picks[i]);
    }
  }

  /** The retry loop of `create_room`: the first drawn code that no existing
      room uses, whether that room is active or not. `None` means the finite
      list of draws ran out before an unused code came up. */
  method FirstUnusedCode(draws: seq<seq<nat>>, taken: set<string>) returns (r: Option<string>)
    requires forall k :: 0 <= k < |draws| ==> ValidDraw(draws[k])
    ensures r.Some? ==> IsRoomCode(r.value) && r.value !in taken
    ensures r.Some? ==> exists k :: 0 <= k < |draws| && r.value == GenerateRoomCode(draws[k])
                              && forall j :: 0 <= j < k ==> GenerateRoomCode(draws[j]) in taken
    ensures r.None? ==> forall k :: 0 <= k < |draws| ==> GenerateRoomCode(draws[k]) in taken
  {
    var i := 0;
    while i < |draws|
      invariant 0 <= i <= |draws|
      invariant forall j :: 0 <= j < i ==> GenerateRoomCode(draws[j]) in taken
    {
      var code := GenerateRoomCode(draws[i]);
      if code !in taken {
        return Some(code);
      }
      i := i + 1;
    }
    return None;
  }
}

=== FILE: room_store.dfy ===
/** The room, member and message tables of `backend/sync_room_crud.py` and the
    queries and updates on them. Tables are sequences of rows in primary-key
    order. Rooms and messages are never deleted by this code, so row `i`
    carries id `i + 1`; member rows are deleted on leave and carry ids from
    their own counter. */
module RoomStore {
  import opened Common
  import opened RoomCode
  import Users

  /** Who may drive playback. */
  datatype ControlMode = HostOnly | AllMembers

  datatype Room = Room(
    id: RoomId,
    code: string,
    name: string,
    hostUserId: UserId,
    controlMode: ControlMode,
    mode: string,
    videoSource: Option<string>,
    currentTime: Seconds,
    isPlaying: bool,
    isActive: bool,
    createdAt: Timestamp,
    updatedAt: Timestamp)

  datatype Member = Member(
    id: nat,
    roomId: RoomId,
    userId: UserId,
    nickname: Option<string>,
    isVerified: bool,
    joinedAt: Timestamp)

  datatype Message = Message(
    id: nat,
    roomId: RoomId,
    userId: UserId,
    text: string,
    createdAt: Timestamp)

  datatype Store = Store(
    rooms: seq<Room>,
    members: seq<Member>,
    nextMemberId: nat,
    messages: seq<Message>)

  const EmptyStore := Store([], [], 1, [])

  predicate IsRow(m: Member, roomId: RoomId, userId: UserId) {
    m.roomId == roomId && m.userId == userId
  }

  /** No two member rows for the same (room, user) pair. */
  predicate UniqueMembership(rows: seq<Member>) {
    forall i, j :: 0 <= i < j < |rows| ==> !IsRow(rows[j], rows[i].roomId, rows[i].userId)
  }

  /** The set of codes in use by any room, active or closed. */
  function Codes(s: Store): set<string> {
    set i | 0 <= i < |s.rooms| :: s.rooms[i].code
  }

  /** The store invariant every operation keeps. */
  predicate Valid(s: Store) {
    && (forall i :: 0 <= i < |s.rooms| ==> s.rooms[i].id == i + 1 && IsRoomCode(s.rooms[i].code))
    && (forall i, j :: 0 <= i < j < |s.rooms| ==> s.rooms[i].code != s.rooms[j].code)
    && UniqueMembership(s.members)
    && (forall i :: 0 <= i < |s.members| ==> s.members[i].id < s.nextMemberId)
    && (forall i, j :: 0 <= i < j < |s.members| ==> s.members[i].id < s.members[j].id)
    && (forall i :: 0 <= i < |s.messages| ==> s.messages[i].id == i + 1)
  }

  lemma EmptyStoreValid()
    ensures Valid(EmptyStore)
  {
  }

  // ---------------------------------------------------------------- rooms

  /** `get_room_by_id`: only active rooms are visible. */
  function GetRoomById(s: Store, id: RoomId): (r: Option<Room>)
    ensures r.Some? <==> 1 <= id <= |s.rooms| && s.rooms[id - 1].isActive
    ensures r.Some? ==> r.value == s.rooms[id - 1]
    ensures Valid(s) && r.Some? ==> r.value.id == id
  {
    if 1 <= id <= |s.rooms| && s.rooms[id - 1].isActive then Some(s.rooms[id - 1]) else None
  }

  /** The first active room in `rooms` with the given code. */
  function FindActiveByCode(rooms: seq<Room>, code: string): (r: Option<nat>)
    ensures r.Some? ==> r.value < |rooms| && rooms[r.value].code == code && rooms[r.value].isActive
    ensures r.None? ==> forall i :: 0 <= i < |rooms| ==> !(rooms[i].code == code && rooms[i].isActive)
  {
    if rooms == [] then None
    else if rooms[0].code == code && rooms[0].isActive then Some(0)
    else match FindActiveByCode(rooms[1..], code)
      case None => None
      case Some(k) => Some(k + 1)
  }

  /** `get_room_by_code`: only active rooms are visible. */
  function GetRoomByCode(s: Store, code: string): (r: Option<Room>)
    ensures r.Some? ==> r.value in s.rooms && r.value.code == code && r.value.isActive
    ensures r.None? ==> forall i :: 0 <= i < |s.rooms| ==> !(s.rooms[i].code == code && s.rooms[i].isActive)
  {
    match FindActiveByCode(s.rooms, code)
    case None => None
    case Some(k) => Some(s.rooms[k])
  }

  /** Since codes are unique, looking a room up by its code and by its id
      agree. */
  lemma GetRoomByCodeAgreesWithId(s: Store, id: RoomId)
    requires Valid(s) && 1 <= id <= |s.rooms|
    ensures GetRoomByCode(s, s.rooms[id - 1].code) == GetRoomById(s, id)
  {
    var code := s.rooms[id - 1].code;
    match FindActiveByCode(s.rooms, code)
    case None =>
    case Some(k) =>
  }

  /** The fields of `SyncRoomCreate`. */
  datatype RoomRequest = RoomRequest(
    name: string,
    controlMode: ControlMode,
    mode: string,
    videoSource: Option<string>)

  /** Appending a room with the next id and an unused well-formed code keeps
      the store valid. */
  lemma AddRoomValid(s: Store, room: Room)
    requires room.id == |s.rooms| + 1 && IsRoomCode(room.code) && room.code !in Codes(s)
    ensures Valid(s) ==> Valid(s.(rooms := s.rooms + [room]))
  {
    assert forall i :: 0 <= i < |s.rooms| ==> s.rooms[i].code in Codes(s);
  }

  /** `create_room`: retries draws until a code no room uses comes up, stores
      an active room hosted by the creator with playback at 0 and paused, and
      makes the host a member. `None` means the draws ran out. */
  method CreateRoom(s: Store, req: RoomRequest, userId: UserId, draws: seq<seq<nat>>, now: Timestamp)
    returns (s': Store, created: Option<Room>)
    requires forall k :: 0 <= k < |draws| ==> ValidDraw(draws[k])
    ensures created.None? ==> s' == s
    ensures created.Some? ==>
      var room := created.value;
      && room.code !in Codes(s)
      && IsRoomCode(room.code)
      && room.id == |s.rooms| + 1
      && room.hostUserId == userId
      && room.name == req.name && room.controlMode == req.controlMode
      && room.mode == req.mode && room.videoSource == req.videoSource
      && room.isActive && !room.isPlaying && room.currentTime == 0.0
      && s'.rooms == s.rooms + [room]
      && s'.messages == s.messages
      && GetRoomById(s', room.id) == Some(room)
      && IsRoomMember(s', room.id, userId)
      && (|| (s'.members == s.members && s'.nextMemberId == s.nextMemberId)
          || (s'.members == s.members + [Member(s.nextMemberId, room.id, userId, None, false, now)]
              && s'.nextMemberId == s.nextMemberId + 1))
    ensures created.Some? && (forall i :: 0 <= i < |s.members| ==> s.members[i].roomId != created.value.id) ==>
      s'.members == s.members + [Member(s.nextMemberId, created.value.id, userId, None, false, now)]
    ensures Valid(s) ==> Valid(s')
  {
    var code := FirstUnusedCode(draws, Codes(s));
    if code.None? {
      return s, None;
    }
    var room := Room(|s.rooms| + 1, code.value, req.name, userId, req.controlMode, req.mode,
                     req.videoSource, 0.0, false, true, now, now);
    var withRoom := s.(rooms := s.rooms + [room]);
    AddRoomValid(s, room);
    s' := JoinRoom(withRoom, room.id, userId, None, now).store;
    created := Some(room);
  }

  /** The fields of `SyncRoomUpdate` that were set; `None` fields are left
      alone (`exclude_unset=True`). `videoSource` may be set to null. */
  datatype RoomUpdate = RoomUpdate(
    name: Option<string>,
    controlMode: Option<ControlMode>,
    mode: Option<string>,
    videoSource: Option<Option<string>>,
    currentTime: Option<Seconds>,
    isPlaying: Option<bool>)

  datatype Updated = Updated(store: Store, room: Option<Room>)

  /** Writes a changed room back to its row. */
  function SaveRoom(s: Store, id: RoomId, room: Room): (s': Store)
    requires 1 <= id <= |s.rooms|
    ensures |s'.rooms| == |s.rooms| && s'.members == s.members && s'.messages == s.messages
    ensures s'.rooms[id - 1] == room
    ensures forall i :: 0 <= i < |s.rooms| && i != id - 1 ==> s'.rooms[i] == s.rooms[i]
    ensures s'.nextMemberId == s.nextMemberId
  {
    s.(rooms := s.rooms[id - 1 := room])
  }

  /** Rewriting a row keeps the store valid as long as the row keeps its id
      and its code. */
  lemma SaveRoomValid(s: Store, id: RoomId, room: Room)
    requires 1 <= id <= |s.rooms|
    requires room.id == s.rooms[id - 1].id && room.code == s.rooms[id - 1].code
    ensures Valid(s) ==> Valid(SaveRoom(s, id, room))
  {
  }

  /** `update_room`: `None` for a missing or closed room; otherwise exactly the
      supplied fields change, `updated_at` is stamped, and no other row moves. */
  function UpdateRoom(s: Store, id: RoomId, upd: RoomUpdate, now: Timestamp): (r: Updated)
    ensures GetRoomById(s, id).None? ==> r.room.None? && r.store == s
    ensures GetRoomById(s, id).Some? ==>
      var was := s.rooms[id - 1];
      && r.room.Some?
      && r.store == SaveRoom(s, id, r.room.value)
      && r.room.value.name == upd.name.GetOr(was.name)
      && r.room.value.controlMode == upd.controlMode.GetOr(was.controlMode)
      && r.room.value.mode == upd.mode.GetOr(was.mode)
      && r.room.value.videoSource == upd.videoSource.GetOr(was.videoSource)
      && r.room.value.currentTime == upd.currentTime.GetOr(was.currentTime)
      && r.room.value.isPlaying == upd.isPlaying.GetOr(was.isPlaying)
      && r.room.value.updatedAt == now
      && r.room.value.(name := was.name, controlMode := was.controlMode, mode := was.mode,
                       videoSource := was.videoSource, currentTime := was.currentTime,
                       isPlaying := was.isPlaying, updatedAt := was.updatedAt) == was
    ensures Valid(s) ==> Valid(r.store)
  {
    match GetRoomById(s, id)
    case None => Updated(s, None)
    case Some(was) =>
      var room := was.(name := upd.name.GetOr(was.name),
                       controlMode := upd.controlMode.GetOr(was.controlMode),
                       mode := upd.mode.GetOr(was.mode),
                       videoSource := upd.videoSource.GetOr(was.videoSource),
                       currentTime := upd.currentTime.GetOr(was.currentTime),
                       isPlaying := upd.isPlaying.GetOr(was.isPlaying),
                       updatedAt := now);
      Updated(SaveRoom(s, id, room), Some(room))
  }

  datatype Closed = Closed(store: Store, closed: bool)

  /** `close_room`: `False` for a missing or already closed room; otherwise
      the room is deactivated (and nothing else about it changes). */
  function CloseRoom(s: Store, id: RoomId): (r: Closed)
    ensures r.closed <==> GetRoomById(s, id).Some?
    ensures !r.closed ==> r.store == s
    ensures r.closed ==> r.store == SaveRoom(s, id, s.rooms[id - 1].(isActive := false))
    ensures GetRoomById(r.store, id).None?
    ensures Valid(s) ==> Valid(r.store)
  {
    match GetRoomById(s, id)
    case None => Closed(s, false)
    case Some(was) => Closed(SaveRoom(s, id, was.(isActive := false)), true)
  }

  /** A closed room can no longer be found, neither by id nor by code. */
  lemma ClosedRoomIsHidden(s: Store, id: RoomId)
    requires Valid(s) && 1 <= id <= |s.rooms|
    ensures var s' := CloseRoom(s, id).store;
            GetRoomById(s', id).None? && GetRoomByCode(s', s.rooms[id - 1].code).None?
  {
    var s' := CloseRoom(s, id).store;
    assert Valid(s');
    assert s'.rooms[id - 1].code == s.rooms[id - 1].code;
    GetRoomByCodeAgreesWithId(s', id);
  }

  // -------------------------------------------------------------- members

  /** The position of the first member row for (room, user), as `.first()`
      finds it. */
  function MemberIndex(rows: seq<Member>, roomId: RoomId, userId: UserId): (k: Option<nat>)
    ensures k.Some? ==> k.value < |rows| && IsRow(rows[k.value], roomId, userId)
    ensures k.Some? ==> forall i :: 0 <= i < k.value ==> !IsRow(rows[i], roomId, userId)
    ensures k.None? ==> forall i :: 0 <= i < |rows| ==> !IsRow(rows[i], roomId, userId)
  {
    if rows == [] then None
    else if IsRow(rows[0], roomId, userId) then Some(0)
    else match MemberIndex(rows[1..], roomId, userId)
      case None => None
      case Some(k) => Some(k + 1)
  }

  /** `is_room_member`: some member row exists for the pair. */
  predicate IsRoomMember(s: Store, roomId: RoomId, userId: UserId) {
    MemberIndex(s.members, roomId, userId).Some?
  }

  lemma IsRoomMemberIff(s: Store, roomId: RoomId, userId: UserId)
    ensures IsRoomMember(s, roomId, userId) <==> exists i :: 0 <= i < |s.members| && IsRow(s.members[i], roomId, userId)
  {
  }

  datatype Joined = Joined(store: Store, member: Member)

  /** `join_room` (store level): a repeat join returns the existing row and
      changes nothing; a first join appends one row with a fresh id. The
      room's existence is not checked here. */
  function JoinRoom(s: Store, roomId: RoomId, userId: UserId, nickname: Option<string>, now: Timestamp): (r: Joined)
    ensures IsRoomMember(s, roomId, userId) ==>
      r.store == s && r.member == s.members[MemberIndex(s.members, roomId, userId).value]
    ensures !IsRoomMember(s, roomId, userId) ==>
      && r.store == s.(members := s.members + [r.member], nextMemberId := s.nextMemberId + 1)
      && r.member == Member(s.nextMemberId, roomId, userId, nickname, false, now)
    ensures IsRoomMember(r.store, roomId, userId)
    ensures IsRow(r.member, roomId, userId)
    ensures Valid(s) ==> Valid(r.store)
  {
    match MemberIndex(s.members, roomId, userId)
    case Some(k) => Joined(s, s.members[k])
    case None =>
      var m := Member(s.nextMemberId, roomId, userId, nickname, false, now);
      var s' := s.(members := s.members + [m], nextMemberId := s.nextMemberId + 1);
      assert IsRow(s'.members[|s.members|], roomId, userId);
      Joined(s', m)
  }

  /** Joining twice is joining once: same store, same row returned. */
  lemma JoinRoomIdempotent(s: Store, roomId: RoomId, userId: UserId, nickname: Option<string>,
                           nickname': Option<string>, now: Timestamp, later: Timestamp)
    ensures var j := JoinRoom(s, roomId, userId, nickname, now);
            var j' := JoinRoom(j.store, roomId, userId, nickname', later);
            j'.store == j.store && j'.member == j.member
  {
    var j := JoinRoom(s, roomId, userId, nickname, now);
    if !IsRoomMember(s, roomId, userId) {
      var rows := j.store.members;
      assert forall i :: 0 <= i < |s.members| ==> rows[i] == s.members[i];
    }
  }

  datatype JoinRequest = JoinRequest(roomId: RoomId, userId: UserId, nickname: Option<string>, at: Timestamp)

  function JoinAll(s: Store, joins: seq<JoinRequest>): Store
    decreases |joins|
  {
    if joins == [] then s
    else JoinAll(JoinRoom(s, joins[0].roomId, joins[0].userId, joins[0].nickname, joins[0].at).store, joins[1..])
  }

  /** After any sequence of joins, each (room, user) pair has at most one
      member row. */
  lemma {:induction false} JoinAllKeepsMembershipUnique(s: Store, joins: seq<JoinRequest>)
    requires Valid(s)
    ensures UniqueMembership(JoinAll(s, joins).members)
    ensures Valid(JoinAll(s, joins))
    decreases |joins|
  {
    if joins != [] {
      var j := JoinRoom(s, joins[0].roomId, joins[0].userId, joins[0].nickname, joins[0].at);
      JoinAllKeepsMembershipUnique(j.store, joins[1..]);
    }
  }

  datatype Left = Left(store: Store, removed: bool)

  /** `leave_room`: deletes the member row (it is not marked offline) and
      reports whether one existed; every other pair's membership is as
      before, and with unique rows the user is no longer a member. */
  function LeaveRoom(s: Store, roomId: RoomId, userId: UserId): (r: Left)
    ensures r.removed <==> IsRoomMember(s, roomId, userId)
    ensures !r.removed ==> r.store == s
    ensures r.removed ==>
      exists k :: 0 <= k < |s.members| && IsRow(s.members[k], roomId, userId)
                  && r.store.members == s.members[..k] + s.members[k + 1..]
    ensures r.store.rooms == s.rooms && r.store.messages == s.messages
    ensures r.store.nextMemberId == s.nextMemberId
    ensures |r.store.members| == |s.members| - (if r.removed then 1 else 0)
    ensures forall rid, uid :: (rid, uid) != (roomId, userId) ==>
              (IsRoomMember(r.store, rid, uid) <==> IsRoomMember(s, rid, uid))
    ensures Valid(s) ==> !IsRoomMember(r.store, roomId, userId) && Valid(r.store)
  {
    match MemberIndex(s.members, roomId, userId)
    case None => Left(s, false)
    case Some(k) =>
      var rows := s.members[..k] + s.members[k + 1..];
      var s' := s.(members := rows);
      RemovePreservesOthers(s, s', k, roomId, userId);
      RemoveKeepsValid(s, s', k);
      Left(s', true)
  }

  /** Deleting one member row keeps the store valid. */
  lemma RemoveKeepsValid(s: Store, s': Store, k: nat)
    requires k < |s.members| && s' == s.(members := s.members[..k] + s.members[k + 1..])
    ensures Valid(s) ==> Valid(s')
  {
    var rows := s'.members;
    assert forall i :: 0 <= i < |rows| ==> rows[i] == s.members[if i < k then i else i + 1];
  }

  lemma RemovePreservesOthers(s: Store, s': Store, k: nat, roomId: RoomId, userId: UserId)
    requires k < |s.members| && IsRow(s.members[k], roomId, userId)
    requires s'.members == s.members[..k] + s.members[k + 1..]
    ensures forall rid, uid :: (rid, uid) != (roomId, userId) ==>
              (IsRoomMember(s', rid, uid) <==> IsRoomMember(s, rid, uid))
    ensures UniqueMembership(s.members) ==> !IsRoomMember(s', roomId, userId)
  {
    var rows := s'.members;
    assert forall i :: 0 <= i < |rows| ==> rows[i] == s.members[if i < k then i else i + 1];
    forall rid, uid | (rid, uid) != (roomId, userId)
      ensures IsRoomMember(s', rid, uid) <==> IsRoomMember(s, rid, uid)
    {
      IsRoomMemberIff(s, rid, uid);
      IsRoomMemberIff(s', rid, uid);
      if IsRoomMember(s, rid, uid) {
        var i :| 0 <= i < |s.members| && IsRow(s.members[i], rid, uid);
        assert i != k;
        assert IsRow(rows[if i < k then i else i - 1], rid, uid);
      }
    }
    if UniqueMembership(s.members) {
      IsRoomMemberIff(s', roomId, userId);
      forall i | 0 <= i < |rows| ensures !IsRow(rows[i], roomId, userId) {
        if i < k {
          assert !IsRow(s.members[k], s.members[i].roomId, s.members[i].userId);
        } else {
          assert !IsRow(s.members[i + 1], s.members[k].roomId, s.members[k].userId);
        }
      }
    }
  }

  /** The member rows of one room, in table order. */
  function RoomRows(rows: seq<Member>, roomId: RoomId): (r: seq<Member>)
    ensures |r| <= |rows|
    ensures forall m :: m in r <==> m in rows && m.roomId == roomId
  {
    if rows == [] then []
    else if rows[0].roomId == roomId then [rows[0]] + RoomRows(rows[1..], roomId)
    else RoomRows(rows[1..], roomId)
  }

  /** The name shown for a member: the nickname when it is set and non-empty
      (Python `nickname or username`), else the username. */
  function DisplayName(nickname: Option<string>, username: string): string {
    if nickname.Some? && nickname.value != "" then nickname.value else username
  }

  datatype MemberView = MemberView(
    id: nat,
    userId: UserId,
    username: string,
    nickname: string,
    isVerified: bool,
    joinedAt: Timestamp)

  /** One entry of `get_room_members`; `None` when the row's user has been
      deleted (the source dereferences `member.user` and fails). */
  function ViewMember(m: Member, d: Users.Directory): Option<MemberView> {
    match Users.GetUserById(d, m.userId)
    case None => None
    case Some(u) => Some(MemberView(m.id, m.userId, u.username, DisplayName(m.nickname, u.username), m.isVerified, m.joinedAt))
  }

  function ViewMembers(rows: seq<Member>, d: Users.Directory): (r: Option<seq<MemberView>>)
    ensures r.Some? <==> forall i :: 0 <= i < |rows| ==> rows[i].userId in d.users
    ensures r.Some? ==> |r.value| == |rows|
                        && forall i :: 0 <= i < |rows| ==> ViewMember(rows[i], d) == Some(r.value[i])
  {
    if rows == [] then Some([])
    else match (ViewMember(rows[0], d), ViewMembers(rows[1..], d))
      case (Some(v), Some(vs)) => Some([v] + vs)
      case _ => None
  }

  /** `get_room_members`: one entry per member row of the room, in table
      order; each shows the nickname if set, otherwise the username, and
      belongs to a member of that room. */
  function GetRoomMembers(s: Store, d: Users.Directory, roomId: RoomId): (r: Option<seq<MemberView>>)
    ensures r.Some? <==> forall m :: m in s.members && m.roomId == roomId ==> m.userId in d.users
    ensures r.Some? ==>
      var rows := RoomRows(s.members, roomId);
      && |r.value| == |rows|
      && forall i :: 0 <= i < |rows| ==>
           && r.value[i].id == rows[i].id
           && r.value[i].userId == rows[i].userId
           && r.value[i].username == d.users[rows[i].userId].username
           && r.value[i].nickname == DisplayName(rows[i].nickname, d.users[rows[i].userId].username)
           && r.value[i].isVerified == rows[i].isVerified
           && r.value[i].joinedAt == rows[i].joinedAt
           && IsRoomMember(s, roomId, r.value[i].userId)
  {
    var rows := RoomRows(s.members, roomId);
    var r := ViewMembers(rows, d);
    assert r.Some? <==> forall m :: m in rows ==> m.userId in d.users by {
      if forall i :: 0 <= i < |rows| ==> rows[i].userId in d.users {
        assert forall m :: m in rows ==> m.userId in d.users;
      }
    }
    RoomRowsAreMembers(s, roomId);
    r
  }

  lemma RoomRowsAreMembers(s: Store, roomId: RoomId)
    ensures var rows := RoomRows(s.members, roomId);
            forall i :: 0 <= i < |rows| ==> IsRoomMember(s, roomId, rows[i].userId)
  {
    var rows := RoomRows(s.members, roomId);
    forall i | 0 <= i < |rows| ensures IsRoomMember(s, roomId, rows[i].userId) {
      assert rows[i] in s.members;
      IsRoomMemberIff(s, roomId, rows[i].userId);
    }
  }

  // ------------------------------------------------------------- messages

  datatype Posted = Posted(store: Store, message: Message)

  /** `create_message`: appends exactly one row holding the given text. */
  function CreateMessage(s: Store, roomId: RoomId, userId: UserId, text: string, now: Timestamp): (r: Posted)
    ensures r.store == s.(messages := s.messages + [r.message])
    ensures r.message == Message(|s.messages| + 1, roomId, userId, text, now)
    ensures Valid(s) ==> Valid(r.store)
  {
    var m := Message(|s.messages| + 1, roomId, userId, text, now);
    Posted(s.(messages := s.messages + [m]), m)
  }

  /** A room's messages, oldest first. */
  function RoomMessages(msgs: seq<Message>, roomId: RoomId): (r: seq<Message>)
    ensures |r| <= |msgs|
    ensures forall m :: m in r <==> m in msgs && m.roomId == roomId
  {
    if msgs == [] then []
    else if msgs[|msgs| - 1].roomId == roomId then RoomMessages(msgs[..|msgs| - 1], roomId) + [msgs[|msgs| - 1]]
    else RoomMessages(msgs[..|msgs| - 1], roomId)
  }

  /** The rows `get_room_messages` selects: newest first, skip `skip`, take
      `limit`, then turned back to oldest first. */
  function MessagePage(s: Store, roomId: RoomId, skip: nat, limit: nat): seq<Message> {
    Reverse(Window(Reverse(RoomMessages(s.messages, roomId)), skip, limit))
  }

  /** The page is the contiguous run of the room's history holding its
      (skip+1)-th through (skip+limit)-th newest messages, oldest first: at
      most `limit` messages, all of that room. */
  lemma MessagePageIsHistorySlice(s: Store, roomId: RoomId, skip: nat, limit: nat)
    ensures var all := RoomMessages(s.messages, roomId);
            var n := |all|;
            MessagePage(s, roomId, skip, limit) == all[n - Min(skip + limit, n)..n - Min(skip, n)]
    ensures |MessagePage(s, roomId, skip, limit)| <= limit
    ensures forall m :: m in MessagePage(s, roomId, skip, limit) ==> m in s.messages && m.roomId == roomId
  {
    var all := RoomMessages(s.messages, roomId);
    ReverseWindowIsSlice(all, skip, limit);
    var page := MessagePage(s, roomId, skip, limit);
    forall m | m in page ensures m in s.messages && m.roomId == roomId {
      assert m in all;
    }
  }

  /** A newly posted message is the last entry of the first page, and the
      room's history grows by exactly that message. */
  lemma NewMessageEndsFirstPage(s: Store, roomId: RoomId, userId: UserId, text: string, now: Timestamp, limit: nat)
    requires limit > 0
    ensures var p := CreateMessage(s, roomId, userId, text, now);
            && RoomMessages(p.store.messages, roomId) == RoomMessages(s.messages, roomId) + [p.message]
            && var page := MessagePage(p.store, roomId, 0, limit);
               |page| > 0 && page[|page| - 1] == p.message
  {
    var p := CreateMessage(s, roomId, userId, text, now);
    assert p.store.messages[..|p.store.messages| - 1] == s.messages;
    MessagePageIsHistorySlice(p.store, roomId, 0, limit);
  }

  datatype MessageView = MessageView(
    id: nat,
    roomId: RoomId,
    userId: UserId,
    username: string,
    text: string,
    createdAt: Timestamp)

  /** `views` are `msgs`, one for one and in order, each with its author's
      current username. */
  predicate Shows(views: seq<MessageView>, msgs: seq<Message>, d: Users.Directory) {
    && |views| == |msgs|
    && forall i :: 0 <= i < |msgs| ==>
         && msgs[i].userId in d.users
         && views[i] == MessageView(msgs[i].id, msgs[i].roomId, msgs[i].userId,
                                    d.users[msgs[i].userId].username, msgs[i].text, msgs[i].createdAt)
  }

  /** Every message of `msgs` still has an author in the directory. */
  predicate AuthorsExist(msgs: seq<Message>, d: Users.Directory) {
    forall i :: 0 <= i < |msgs| ==> msgs[i].userId in d.users
  }

  function ViewMessages(page: seq<Message>, d: Users.Directory): (r: Option<seq<MessageView>>)
    ensures r.Some? <==> AuthorsExist(page, d)
    ensures r.Some? ==> Shows(r.value, page, d)
  {
    if page == [] then Some([])
    else
      var m := page[0];
      match (Users.GetUserById(d, m.userId), ViewMessages(page[1..], d))
      case (Some(u), Some(vs)) => Some([MessageView(m.id, m.roomId, m.userId, u.username, m.text, m.createdAt)] + vs)
      case _ => None
  }

  /** `get_room_messages`: the room's (skip+1)-th through (skip+limit)-th
      newest messages, oldest first, each with its author's username; `None`
      when an author of one of them has been deleted (the source fails on
      `msg.user.username`). */
  function GetRoomMessages(s: Store, d: Users.Directory, roomId: RoomId, skip: nat, limit: nat): (r: Option<seq<MessageView>>)
    ensures var all := RoomMessages(s.messages, roomId);
            var page := all[|all| - Min(skip + limit, |all|)..|all| - Min(skip, |all|)];
            && |page| <= limit
            && (r.Some? <==> AuthorsExist(page, d))
            && (r.Some? ==> Shows(r.value, page, d))
  {
    MessagePageIsHistorySlice(s, roomId, skip, limit);
    ViewMessages(MessagePage(s, roomId, skip, limit), d)
  }
}

=== FILE: sessions.dfy ===
/** Properties of the watch-room engine that span several handler calls:
    the server invariant across any run of events, what a client sees after
    a seek, what a host leaving does to control, the chat length boundary,
    and how joins, reconnects and leaves compose on the presence map. */
module Sessions {
  import opened Common
  import opened Text
  import opened RoomStore
  import opened Presence
  import opened Gateway
  import Users
  import RoomCode

  /** What reaches the server from one connection: a request event, or
      the connection closing. */
  datatype Call =
    | Request(sid: Sid, event: Inbound, now: Timestamp)
    | Hangup(sid: Sid)

  predicate RequestsOnly(calls: seq<Call>) {
    forall k :: 0 <= k < |calls| ==> calls[k].Request?
  }

  /** Requests handled one after another; the events sent are collected in
      order. A disconnect chooses which user to drop, so it is a method and
      runs that contain one are described by `Serve` alone. */
  function Run(s: Server, calls: seq<Call>): Step
    requires RequestsOnly(calls)
    decreases |calls|
  {
    if calls == [] then Step(s, [])
    else
      var before := Run(s, calls[..|calls| - 1]);
      var last := calls[|calls| - 1];
      var step := Handle(before.server, last.sid, last.event, last.now);
      Step(step.server, before.out + step.out)
  }

  /** The sender-only routing of errors survives appending more events. */
  lemma ErrorsToSenderAppend(a: seq<Emit>, b: seq<Emit>)
    requires ErrorsToSender(a) && ErrorsToSender(b)
    ensures ErrorsToSender(a + b)
  {
    var out := a + b;
    forall k | 0 <= k < |out| && out[k].payload.Error? ensures out[k].target == ToSender {
      if k >= |a| {
        assert out[k] == b[k - |a|];
      }
    }
  }

  /** One call: a request goes to its handler, a hangup to `disconnect`. */
  method Dispatch(srv: Server, call: Call) returns (step: Step)
    ensures call.Request? ==> step == Handle(srv, call.sid, call.event, call.now)
    ensures call.Hangup? ==> Disconnected(srv.presence, call.sid, step.server.presence, step.out)
    ensures call.Hangup? ==> step.server.store == srv.store && step.server.directory == srv.directory
    ensures Inv(srv) ==> Inv(step.server)
    ensures ErrorsToSender(step.out)
  {
    match call {
      case Request(sid, event, now) =>
        step := Handle(srv, sid, event, now);
      case Hangup(sid) =>
        step := OnDisconnect(srv, sid);
        forall k | 0 <= k < |step.out| ensures !step.out[k].payload.Error? {
          assert step.out[k].payload.MemberLeft?;
        }
    }
  }

  /** The server's event loop, over requests and disconnects in any order.
      The store stays valid, the directory stays valid, no empty room is
      kept in the presence map, and no `error` is ever broadcast; a run of
      requests alone is `Run`. */
  method Serve(s: Server, calls: seq<Call>) returns (r: Step)
    ensures RequestsOnly(calls) ==> r == Run(s, calls)
    ensures Inv(s) ==> Inv(r.server)
    ensures ErrorsToSender(r.out)
  {
    r := Step(s, []);
    var i := 0;
    while i < |calls|
      invariant 0 <= i <= |calls|
      invariant RequestsOnly(calls[..i]) ==> r == Run(s, calls[..i])
      invariant Inv(s) ==> Inv(r.server)
      invariant ErrorsToSender(r.out)
    {
      var step := Dispatch(r.server, calls[i]);
      assert calls[..i + 1][..i] == calls[..i];
      ErrorsToSenderAppend(r.out, step.out);
      r := Step(step.server, r.out + step.out);
      i := i + 1;
    }
    assert calls[..|calls|] == calls;
  }

  /** The server as it starts: empty tables and nobody connected. */
  const Fresh := Server(EmptyStore, Users.Empty, map[])

  /** A call into the database layer from outside the socket server: the
      user and room operations the HTTP side performs. The socket handlers
      never create users, rooms or memberships themselves. */
  datatype Action =
    | SignUp(req: Users.UserCreate)
    | EditUser(id: UserId, upd: Users.UserUpdate)
    | ChangePassword(id: UserId, oldPassword: string, newPassword: string)
    | RemoveUser(id: UserId)
    | OpenRoom(room: RoomRequest, host: UserId, draws: seq<seq<nat>>)
    | EditRoom(roomId: RoomId, changes: RoomUpdate)
    | ShutRoom(roomId: RoomId)
    | EnterRoom(roomId: RoomId, userId: UserId, nickname: Option<string>)
    | ExitRoom(roomId: RoomId, userId: UserId)

  /** Everything that can reach the running system: socket traffic, or a
      database action at time `at`. */
  datatype Op =
    | Socket(call: Call)
    | Database(action: Action, at: Timestamp)

  /** `random.choices` only ever yields indices into the code alphabet. */
  predicate Drawable(op: Op) {
    op.Database? && op.action.OpenRoom? ==>
      forall k :: 0 <= k < |op.action.draws| ==> RoomCode.ValidDraw(op.action.draws[k])
  }

  /** One database action: the matching operation of `crud.py` or
      `sync_room_crud.py` is applied to the tables, and the presence map is
      left alone. */
  method Administer(srv: Server, action: Action, now: Timestamp,
                    hash: string -> string, verify: (string, string) -> bool)
    returns (s': Server)
    requires Inv(srv)
    requires Drawable(Database(action, now))
    ensures Inv(s')
    ensures s'.presence == srv.presence
    ensures action.SignUp? ==> s' == srv.(directory := Users.CreateUser(srv.directory, action.req, hash).directory)
    ensures action.EditUser? ==> s' == srv.(directory := Users.UpdateUser(srv.directory, action.id, action.upd, hash).directory)
    ensures action.ChangePassword? ==>
      s' == srv.(directory := Users.UpdateUserPassword(srv.directory, action.id, action.oldPassword,
                                                       action.newPassword, hash, verify).directory)
    ensures action.RemoveUser? ==> s' == srv.(directory := Users.DeleteUser(srv.directory, action.id).directory)
    ensures action.OpenRoom? ==>
      && s'.directory == srv.directory
      && |srv.store.rooms| <= |s'.store.rooms| <= |srv.store.rooms| + 1
      && s'.store.rooms[..|srv.store.rooms|] == srv.store.rooms
      && s'.store.messages == srv.store.messages
    ensures action.EditRoom? ==> s' == srv.(store := UpdateRoom(srv.store, action.roomId, action.changes, now).store)
    ensures action.ShutRoom? ==> s' == srv.(store := CloseRoom(srv.store, action.roomId).store)
    ensures action.EnterRoom? ==>
      s' == srv.(store := JoinRoom(srv.store, action.roomId, action.userId, action.nickname, now).store)
    ensures action.ExitRoom? ==> s' == srv.(store := LeaveRoom(srv.store, action.roomId, action.userId).store)
  {
    match action {
      case SignUp(req) =>
        s' := srv.(directory := Users.CreateUser(srv.directory, req, hash).directory);
      case EditUser(id, upd) =>
        s' := srv.(directory := Users.UpdateUser(srv.directory, id, upd, hash).directory);
      case ChangePassword(id, oldPassword, newPassword) =>
        s' := srv.(directory := Users.UpdateUserPassword(srv.directory, id, oldPassword, newPassword, hash, verify).directory);
      case RemoveUser(id) =>
        s' := srv.(directory := Users.DeleteUser(srv.directory, id).directory);
      case OpenRoom(req, host, draws) =>
        var store, _ := CreateRoom(srv.store, req, host, draws, now);
        s' := srv.(store := store);
      case EditRoom(id, upd) =>
        s' := srv.(store := UpdateRoom(srv.store, id, upd, now).store);
      case ShutRoom(id) =>
        s' := srv.(store := CloseRoom(srv.store, id).store);
      case EnterRoom(roomId, userId, nickname) =>
        s' := srv.(store := JoinRoom(srv.store, roomId, userId, nickname, now).store);
      case ExitRoom(roomId, userId) =>
        s' := srv.(store := LeaveRoom(srv.store, roomId, userId).store);
    }
  }

  /** The running system from startup: whatever mix of database actions,
      requests and disconnects arrives, the invariant holds throughout and no
      `error` is ever broadcast. */
  method ServeFromStart(ops: seq<Op>, hash: string -> string, verify: (string, string) -> bool)
    returns (r: Step)
    requires forall k :: 0 <= k < |ops| ==> Drawable(ops[k])
    ensures Inv(r.server)
    ensures ErrorsToSender(r.out)
  {
    EmptyStoreValid();
    r := Step(Fresh, []);
    var i := 0;
    while i < |ops|
      invariant 0 <= i <= |ops|
      invariant Inv(r.server)
      invariant ErrorsToSender(r.out)
    {
      match ops[i] {
        case Socket(call) =>
          var step := Dispatch(r.server, call);
          ErrorsToSenderAppend(r.out, step.out);
          r := Step(step.server, r.out + step.out);
        case Database(action, at) =>
          var srv := Administer(r.server, action, at, hash, verify);
          r := Step(srv, r.out);
      }
      i := i + 1;
    }
  }

  /** After an admitted seek, any member asking for a sync is told the new
      position, with the playing flag as it was and attributed to the host. */
  lemma SeekThenSync(s: Server, sid: Sid, d: ControlData, now: Timestamp, sid': Sid, asker: UserId)
    requires ControlAdmitted(s, d)
    requires d.action == Some("seek") && d.time.Some?
    requires asker != 0 && IsRoomMember(s.store, d.roomId.value, asker)
    ensures var was := s.store.rooms[d.roomId.value - 1];
            var s1 := OnControl(s, sid, d, now).server;
            OnSyncRequest(s1, sid', SyncData(d.roomId, Some(asker))).out
              == [Emit(ToSender, PlaybackSync("sync", d.time, None, was.isPlaying, was.hostUserId))]
  {
    var id := d.roomId.value;
    var room := Apply(s.store.rooms[id - 1], "seek", d.time, now);
    var s1 := OnControl(s, sid, d, now).server;
    assert s1.store.rooms[id - 1] == room;
    assert s1.store.members == s.store.members;
  }

  /** The host leaving changes nothing about the room row: a `host_only`
      room stays `host_only` with the same host, so every other user is still
      refused control afterwards. */
  lemma HostLeaveKeepsControl(s: Server, sid: Sid, roomId: RoomId, sid': Sid, other: UserId,
                              action: string, time: Option<Seconds>, rate: Option<real>, now: Timestamp)
    requires roomId != 0 && GetRoomById(s.store, roomId).Some?
    requires s.store.rooms[roomId - 1].controlMode == HostOnly
    requires var host := s.store.rooms[roomId - 1].hostUserId;
             host != 0 && other != 0 && other != host && action != ""
    ensures var host := s.store.rooms[roomId - 1].hostUserId;
            var s1 := OnLeave(s, sid, LeaveData(Some(roomId), Some(host))).server;
            && GetRoomById(s1.store, roomId) == GetRoomById(s.store, roomId)
            && OnControl(s1, sid', ControlData(Some(roomId), Some(other), Some(action), time, rate), now)
                 == Reject(s1, NotHost)
  {
  }

  /** The length bound is on the stripped text and is inclusive: a member's
      message of up to 500 characters with no surrounding whitespace is
      stored, and one character more is refused as too long. */
  lemma ChatLengthBoundary(s: Server, sid: Sid, roomId: RoomId, userId: UserId,
                           username: Option<string>, text: string, now: Timestamp)
    requires roomId != 0 && userId != 0 && IsRoomMember(s.store, roomId, userId)
    requires text != [] && !IsSpace(text[0]) && !IsSpace(text[|text| - 1])
    ensures var d := ChatData(Some(roomId), Some(userId), username, Some(text));
            var r := OnChat(s, sid, d, now);
            && (|text| <= MaxMessageLength <==> ChatAccepted(s, d))
            && (|text| <= MaxMessageLength ==> |r.server.store.messages| == |s.store.messages| + 1)
            && (|text| > MaxMessageLength <==> r == Reject(s, MessageTooLong))
  {
    StripTrimmed(text);
    var d := ChatData(Some(roomId), Some(userId), username, Some(text));
    assert ChatText(d) == text;
  }

  /** A message of whitespace only is refused as empty and nothing is
      stored. */
  lemma BlankChatRefused(s: Server, sid: Sid, d: ChatData, now: Timestamp)
    requires d.message.Some? && AllSpace(d.message.value)
    ensures OnChat(s, sid, d, now) == Reject(s, EmptyMessage)
  {
    StripEmptyIffAllSpace(d.message.value);
  }

  /** A member who joins from a connection and then leaves restores the
      presence map exactly, when they were not attached before; the room
      hears `member_left`. */
  lemma JoinThenLeave(s: Server, sid: Sid, d: JoinData)
    requires JoinAdmitted(s, d) && !IsAdminStealth(s, d)
    requires NoEmptyRoom(s.presence) && !IsConnected(s.presence, d.roomId.value, d.userId.value)
    ensures var s1 := OnJoin(s, sid, d).server;
            var r := OnLeave(s1, sid, LeaveData(d.roomId, d.userId));
            && r.server.presence == s.presence
            && r.out == [Emit(ToRoom(d.roomId.value), MemberLeft(d.userId.value, d.roomId.value))]
  {
    var room, user := d.roomId.value, d.userId.value;
    AttachThenDetach(s.presence, room, user, sid);
    var s1 := OnJoin(s, sid, d).server;
    assert IsConnected(s1.presence, room, user);
  }

  /** Joining again from a new connection replaces the recorded sid: the
      last connection wins, and nothing else in the presence map moves. */
  lemma RejoinLastWins(s: Server, sid: Sid, sid': Sid, d: JoinData)
    requires JoinAdmitted(s, d) && !IsAdminStealth(s, d)
    ensures var s1 := OnJoin(s, sid, d).server;
            var s2 := OnJoin(s1, sid', d).server;
            && Connected(s2.presence, d.roomId.value)
                 == Connected(s.presence, d.roomId.value)[d.userId.value := sid']
            && forall other :: other != d.roomId.value ==> Connected(s2.presence, other) == Connected(s.presence, other)
  {
    var room, user := d.roomId.value, d.userId.value;
    JoinAttaches(s, sid, d);
    var s1 := s.(presence := Attach(s.presence, room, user, sid));
    assert JoinAdmitted(s1, d) && !IsAdminStealth(s1, d);
    JoinAttaches(s1, sid', d);
    AttachTwice(s.presence, room, user, sid, sid');
  }
}

=== FILE: text.dfy ===
/** Python's `str.strip()` with no argument, as the chat handler applies it to
    an incoming message. */
module Text {

  /** The characters for which Python's `str.isspace()` holds: these are the
      ones `str.strip()` removes from both ends. */
  predicate IsSpace(c: char) {
    || c == ' '
    || ('\t' <= c <= '\r')
    || ('\U{1C}' <= c <= '\U{1F}')
    || c == '\U{85}'
    || c == '\U{A0}'
    || c == '\U{1680}'
    || ('\U{2000}' <= c <= '\U{200A}')
    || c == '\U{2028}'
    || c == '\U{2029}'
    || c == '\U{202F}'
    || c == '\U{205F}'
    || c == '\U{3000}'
  }

  /** Every character of `s` from position `lo` up to `hi` is whitespace. */
  predicate SpaceBetween(s: string, lo: int, hi: int) {
    forall k :: lo <= k < hi && 0 <= k < |s| ==> IsSpace(s[k])
  }

  predicate AllSpace(s: string) {
    SpaceBetween(s, 0, |s|)
  }

  /** The first position at or after `k` that is not whitespace, or `|s|`. */
  function SkipSpace(s: string, k: nat): (n: nat)
    requires k <= |s|
    ensures k <= n <= |s|
    ensures SpaceBetween(s, k, n)
    ensures n < |s| ==> !IsSpace(s[n])
    decreases |s| - k
  {
    if k < |s| && IsSpace(s[k]) then SkipSpace(s, k + 1) else k
  }

  /** The position just after the last character before `m`, and at or
      after `lo`, that is not whitespace; `lo` when there is none. */
  function SkipSpaceBack(s: string, lo: nat, m: nat): (n: nat)
    requires lo <= m <= |s|
    ensures lo <= n <= m
    ensures SpaceBetween(s, n, m)
    ensures n > lo ==> !IsSpace(s[n - 1])
    decreases m
  {
    if m > lo && IsSpace(s[m - 1]) then SkipSpaceBack(s, lo, m - 1) else m
  }

  /** `s.strip()`: the unique infix of `s` that neither starts nor ends with
      whitespace and is surrounded by whitespace only. */
  function Strip(s: string): (r: string)
    ensures |r| <= |s|
    ensures exists i :: 0 <= i <= |s| - |r| && r == s[i..i + |r|]
                     && SpaceBetween(s, 0, i) && SpaceBetween(s, i + |r|, |s|)
    ensures r != [] ==> !IsSpace(r[0]) && !IsSpace(r[|r| - 1])
  {
    var lo := SkipSpace(s, 0);
    var hi := SkipSpaceBack(s, lo, |s|);
    s[lo..hi]
  }

  /** A string strips to nothing exactly when it is all whitespace, so
      `"   "` is an empty chat message. */
  lemma StripEmptyIffAllSpace(s: string)
    ensures Strip(s) == [] <==> AllSpace(s)
  {
    var r := Strip(s);
    var i :| 0 <= i <= |s| - |r| && r == s[i..i + |r|]
             && SpaceBetween(s, 0, i) && SpaceBetween(s, i + |r|, |s|);
    if r != [] {
      assert r[0] == s[i];
    }
  }

  /** A string that neither starts nor ends with whitespace strips to
      itself. */
  lemma StripTrimmed(t: string)
    requires t != [] ==> !IsSpace(t[0]) && !IsSpace(t[|t| - 1])
    ensures Strip(t) == t
  {
    assert SkipSpace(t, 0) == 0;
    assert SkipSpaceBack(t, 0, |t|) == |t|;
    assert t[0..|t|] == t;
  }

  /** Stripping twice is stripping once. */
  lemma StripIdempotent(s: string)
    ensures Strip(Strip(s)) == Strip(s)
  {
    var r := Strip(s);
    if r != [] {
      assert SkipSpace(r, 0) == 0;
      assert SkipSpaceBack(r, 0, |r|) == |r|;
    }
  }
}

=== FILE: users.dfy ===
/** The user directory of `backend/crud.py`: creation with the
    "first user is admin" rule, lookup, update, password change and deletion.
    Password hashing is salted bcrypt, a foreign call: every operation that
    hashes takes the hash it would produce as a function parameter, and
    verification likewise. */
module Users {
  import opened Common

  const AdminRole := "admin"
  const UserRole := "user"

  datatype User = User(
    id: UserId,
    username: string,
    email: string,
    hashedPassword: string,
    role: string)

  /** The `users` table: rows by primary key, plus the next autoincrement
      value. */
  datatype Directory = Directory(users: map<UserId, User>, nextId: UserId)

  /** Every row sits under its own id, and ids are below the counter. */
  predicate Valid(d: Directory) {
    && d.nextId >= 1
    && forall id :: id in d.users ==> 1 <= id < d.nextId && d.users[id].id == id
  }

  const Empty := Directory(map[], 1)

  function GetUserById(d: Directory, id: UserId): (r: Option<User>)
    ensures r.Some? <==> id in d.users
    ensures r.Some? ==> r.value == d.users[id]
    ensures r.Some? && Valid(d) ==> r.value.id == id
  {
    if id in d.users then Some(d.users[id]) else None
  }

  predicate IsAdmin(d: Directory, id: UserId) {
    id in d.users && d.users[id].role == AdminRole
  }

  datatype UserCreate = UserCreate(username: string, email: string, password: string)

  datatype Created = Created(directory: Directory, user: User)

  /** `create_user`: the role is `admin` exactly when the table is empty, the
      stored password is the hash of the supplied one, and the new row gets a
      fresh id. */
  function CreateUser(d: Directory, req: UserCreate, hash: string -> string): (r: Created)
    requires Valid(d)
    ensures r.user.role == AdminRole <==> |d.users| == 0
    ensures r.user.role == UserRole <==> |d.users| != 0
    ensures r.user.hashedPassword == hash(req.password)
    ensures r.user.username == req.username && r.user.email == req.email
    ensures r.user.id !in d.users
    ensures r.directory.users == d.users[r.user.id := r.user]
    ensures Valid(r.directory)
    ensures GetUserById(r.directory, r.user.id) == Some(r.user)
  {
    var role := if |d.users| == 0 then AdminRole else UserRole;
    var u := User(d.nextId, req.username, req.email, hash(req.password), role);
    Created(Directory(d.users[d.nextId := u], d.nextId + 1), u)
  }

  /** The fields of a `UserUpdate` that were set; `None` fields are left
      alone (`exclude_unset=True`). */
  datatype UserUpdate = UserUpdate(
    username: Option<string>,
    email: Option<string>,
    role: Option<string>,
    password: Option<string>)

  datatype Changed = Changed(directory: Directory, user: Option<User>)

  /** `update_user`: `None` for an unknown id; otherwise exactly the supplied
      fields change, and a supplied password is stored only as its hash. */
  function UpdateUser(d: Directory, id: UserId, upd: UserUpdate, hash: string -> string): (r: Changed)
    ensures id !in d.users ==> r.user.None? && r.directory == d
    ensures id in d.users ==> r.user.Some? && r.directory == d.(users := d.users[id := r.user.value])
    ensures id in d.users ==>
      var was, now := d.users[id], r.user.value;
      && now.id == was.id
      && now.username == upd.username.GetOr(was.username)
      && now.email == upd.email.GetOr(was.email)
      && now.role == upd.role.GetOr(was.role)
      && (upd.password.Some? ==> now.hashedPassword == hash(upd.password.value))
      && (upd.password.None? ==> now.hashedPassword == was.hashedPassword)
    ensures Valid(d) ==> Valid(r.directory)
  {
    match GetUserById(d, id)
    case None => Changed(d, None)
    case Some(was) =>
      var hashed := if upd.password.Some? then hash(upd.password.value) else was.hashedPassword;
      var now := was.(username := upd.username.GetOr(was.username),
                      email := upd.email.GetOr(was.email),
                      role := upd.role.GetOr(was.role),
                      hashedPassword := hashed);
      Changed(d.(users := d.users[id := now]), Some(now))
  }

  /** The three outcomes of `update_user_password`: `None`, `False`, or the
      updated row. */
  datatype PasswordOutcome = UnknownUser | WrongPassword | PasswordChanged(user: User)

  datatype PasswordChange = PasswordChange(directory: Directory, outcome: PasswordOutcome)

  /** `update_user_password`: unknown ids and failed verification of the old
      password change nothing; otherwise only that user's hash is replaced. */
  function UpdateUserPassword(
    d: Directory, id: UserId, oldPassword: string, newPassword: string,
    hash: string -> string, verify: (string, string) -> bool): (r: PasswordChange)
    ensures r.outcome.UnknownUser? <==> id !in d.users
    ensures r.outcome.WrongPassword? <==> id in d.users && !verify(oldPassword, d.users[id].hashedPassword)
    ensures !r.outcome.PasswordChanged? ==> r.directory == d
    ensures r.outcome.PasswordChanged? ==>
      && r.outcome.user == d.users[id].(hashedPassword := hash(newPassword))
      && r.directory == d.(users := d.users[id := r.outcome.user])
    ensures Valid(d) ==> Valid(r.directory)
  {
    match GetUserById(d, id)
    case None => PasswordChange(d, UnknownUser)
    case Some(u) =>
      if !verify(oldPassword, u.hashedPassword) then PasswordChange(d, WrongPassword)
      else
        var u' := u.(hashedPassword := hash(newPassword));
        PasswordChange(d.(users := d.users[id := u']), PasswordChanged(u'))
  }

  /** After a successful password change the new password is the one that
      verifies, provided verification accepts what hashing produced. */
  lemma NewPasswordVerifies(
    d: Directory, id: UserId, oldPassword: string, newPassword: string,
    hash: string -> string, verify: (string, string) -> bool)
    requires forall p :: verify(p, hash(p))
    requires UpdateUserPassword(d, id, oldPassword, newPassword, hash, verify).outcome.PasswordChanged?
    ensures var d' := UpdateUserPassword(d, id, oldPassword, newPassword, hash, verify).directory;
            id in d'.users && verify(newPassword, d'.users[id].hashedPassword)
  {
  }

  datatype Deleted = Deleted(directory: Directory, existed: bool)

  /** `delete_user`: `True` exactly when the user existed; afterwards the id
      is unknown and every other user is untouched. */
  function DeleteUser(d: Directory, id: UserId): (r: Deleted)
    ensures r.existed <==> id in d.users
    ensures GetUserById(r.directory, id).None?
    ensures forall other :: other != id ==> GetUserById(r.directory, other) == GetUserById(d, other)
    ensures Valid(d) ==> Valid(r.directory)
  {
    if id in d.users then Deleted(d.(users := d.users - {id}), true) else Deleted(d, false)
  }

  /** Users created one after another, each with its own password hash. */
  function CreateAll(d: Directory, reqs: seq<UserCreate>, hash: string -> string): (r: Directory)
    requires Valid(d)
    ensures Valid(r)
    decreases |reqs|
  {
    if reqs == [] then d else CreateAll(CreateUser(d, reqs[0], hash).directory, reqs[1..], hash)
  }

  function AdminIds(d: Directory): set<UserId> {
    set id | id in d.users && d.users[id].role == AdminRole
  }

  /** Once the table is non-empty, further sign-ups never add an admin. */
  lemma {:induction false} LaterUsersAreNotAdmins(d: Directory, reqs: seq<UserCreate>, hash: string -> string)
    requires Valid(d) && |d.users| != 0
    ensures AdminIds(CreateAll(d, reqs, hash)) == AdminIds(d)
    decreases |reqs|
  {
    if reqs != [] {
      var c := CreateUser(d, reqs[0], hash);
      assert c.directory.users.Keys == d.users.Keys + {c.user.id};
      assert |c.directory.users| != 0 by {
        assert c.user.id in c.directory.users;
      }
      assert AdminIds(c.directory) == AdminIds(d);
      LaterUsersAreNotAdmins(c.directory, reqs[1..], hash);
    }
  }

  /** Starting from an empty table, the first user to sign up is the one and
      only admin. */
  lemma FirstUserIsOnlyAdmin(reqs: seq<UserCreate>, hash: string -> string)
    requires |reqs| > 0
    ensures AdminIds(CreateAll(Empty, reqs, hash)) == {Empty.nextId}
  {
    var c := CreateUser(Empty, reqs[0], hash);
    assert c.directory.users == map[Empty.nextId := c.user];
    assert AdminIds(c.directory) == {Empty.nextId};
    LaterUsersAreNotAdmins(c.directory, reqs[1..], hash);
  }
}
